=== FILE: README.md ===
# CRM admin panel: data table, sale form and list pages in Dafny

This project models the logic of a browser admin panel for clients, sales and
tasks. The model is built from immutable datatypes and pure functions.

- **DataTable** is the generic table component. It takes the caller's rows
  (records: maps from field name to `VStr`, `VNum` or `VOther`) and its own
  state (search text, sort state, page index, page size). From these it
  derives three views:
  - the *filtered* view: a case-insensitive substring search on one column;
  - the *sorted* view: one column, ascending or descending;
  - the *paged* view: one page-size slice.

  It also models the header toggle, the page-count and navigation rules,
  the page reset when the search text or page size changes, the body-row
  choice (loader / rows / "no data") and the footer.
- **SaleForm** covers the product lines of a sale. It models adding and
  removing lines with input checks, and keeps the amount equal to the sum of
  price × quantity. It also models the guards in front of the create/update
  request.
- **ClientsPage, SalesPage, TasksPage** cover the status (and, for tasks,
  priority) pre-filters and the list update after a confirmed delete that
  returned status 200. They also cover the in-place task status change and
  each table's column configuration.

`localeCompare` is a function parameter. Where ordering is claimed, it must
satisfy `LocaleOrder`: swapping the arguments flips the sign, and "not
after" is transitive. The current time (temporary product ids), the
current date (new form), the `window.confirm` answer and the server's reply
status are all parameters.

Modules: `Wrappers` (Option), `Seqs` (order-preserving filter), `Text`
(lower-casing, `includes`, integer `toString`), `Records`, `Sorting`
(insertion sort under a three-way comparator), `DataTable`, `Entities`
(record types and how the table sees them), `ListOps` (shared list
updates), `SaleForm`, `ClientsPage`, `SalesPage`, `TasksPage`,
`Scenarios` (worked examples).

Details of the code the model keeps:
- The search filter depends only on `searchColumn`, not on `searchable`.
  `searchable` only decides whether the search box is shown
  (src/components/ui/data-table/DataTable.tsx:64, 140).
- The page index is reset only when the search text or page size actually
  changes to a different value. A change in the caller's rows does not
  reset it, so the index can point past the last page. `NextFromPastEnd`
  and `FooterConsistent` describe that state.
- A delete counts as successful only on status exactly 200
  (`ListOps.DeleteSucceeded`). Saving the form accepts any 2xx status
  (src/pages/sales/SaleForm.tsx:188), but what follows a save is navigation,
  which is not modelled.
- A route id of `""` puts the form in edit mode, but submitting it sends a
  create request, because the update needs a non-empty id
  (src/pages/sales/SaleForm.tsx:24, 182).

## Model

| member | source | states |
|---|---|---|
| Text.LowerChar | src/components/ui/data-table/DataTable.tsx:69 | the lower-cased character is never an upper-case ASCII letter and is the same letter as the input up to case, which together fix it: capitals become their lower-case partner, everything else is kept |
| Text.Lower | src/components/ui/data-table/DataTable.tsx:69 | ASCII lower-casing, the model's stand-in for `toLowerCase`, keeps the length and maps every character independently |
| Text.LowerIdempotent | src/components/ui/data-table/DataTable.tsx:69 | lower-casing twice is the same as lower-casing once |
| Text.LowerCharEqualIff | src/components/ui/data-table/DataTable.tsx:69 | two characters lower-case to the same character exactly when they are the same letter up to ASCII case |
| Text.LowerEqualIff | src/components/ui/data-table/DataTable.tsx:69 | two strings lower-case to the same string exactly when they differ at most in the ASCII case of their letters |
| Text.ContainsIffOccurs | src/components/ui/data-table/DataTable.tsx:69-72 | the `includes` scan succeeds exactly when the needle occurs at some offset of the text |
| Text.Contains | src/components/ui/data-table/DataTable.tsx:69 | `includes` finds the empty needle in any text, and never finds a needle longer than the text |
| Text.NatToDecimal | src/components/ui/data-table/DataTable.tsx:72 | the numeral of a natural number is a non-empty digit string with no leading zero |
| Text.IntToDecimal | src/components/ui/data-table/DataTable.tsx:72 | `toString` of an integer is a minus sign exactly for negatives, followed by a non-empty digit string with no leading zero except for 0 itself; for non-negatives it is the natural numeral |
| Text.NatToDecimalRoundTrip | src/components/ui/data-table/DataTable.tsx:72 | reading back the numeral of a natural number gives that number |
| Text.IntToDecimalRoundTrip | src/components/ui/data-table/DataTable.tsx:72 | reading back the numeral of an integer gives that integer |
| Text.IntToDecimalInjective | src/components/ui/data-table/DataTable.tsx:72 | distinct numbers are searched through distinct numerals |
| Records.Field | src/components/ui/data-table/DataTable.tsx:67 | reading an absent field yields the "other" value (`undefined`) |
| Seqs.Filter | src/components/ui/data-table/DataTable.tsx:66-75 | an element is in the filtered sequence iff it is in the input and satisfies the criterion, and the result is no longer than the input |
| Seqs.FilterCounts | src/components/ui/data-table/DataTable.tsx:66-75 | every kept element occurs as often as in the input, and dropped ones not at all |
| Seqs.FilterIsSubsequence | src/components/ui/data-table/DataTable.tsx:66-75 | the filtered sequence keeps the input's order |
| Seqs.FilterKeepsAll | src/pages/tasks/TasksPage.tsx:136-140 | a criterion that holds of every element leaves the sequence unchanged |
| Seqs.FilterAppend | src/components/ui/data-table/DataTable.tsx:66-75 | filtering a concatenation is concatenating the filtered parts |
| Seqs.MapWhere | src/pages/tasks/TasksPage.tsx:87 | the update keeps the length and changes exactly the elements that satisfy the criterion |
| Sorting.Insert | src/components/ui/data-table/DataTable.tsx:82-97 | inserting adds exactly one occurrence of the element, placed first or after the old first element |
| Sorting.InsertionSort | src/components/ui/data-table/DataTable.tsx:82-97 | the sorted copy is a permutation of the input |
| Sorting.InsertOrdered | src/components/ui/data-table/DataTable.tsx:82-97 | inserting into an ordered sequence keeps it ordered when the element is comparable with the others |
| Sorting.InsertionSortOrdered | src/components/ui/data-table/DataTable.tsx:82-97 | the sort's output is ordered whenever the comparator never calls two elements "greater" both ways |
| Sorting.OrderedIsPairwise | src/components/ui/data-table/DataTable.tsx:82-97 | with a transitive comparator, a neighbour-by-neighbour ordered sequence is ordered between any two positions |
| DataTable.MatchesMeaning | src/components/ui/data-table/DataTable.tsx:66-75 | a string matches iff its lower-cased form contains the lower-cased query; a number matches iff its numeral contains the raw query; other values never match |
| DataTable.MatchesIgnoresCase | src/components/ui/data-table/DataTable.tsx:69 | the string match is the same when both text and query are lower-cased first |
| DataTable.MatchesUpToCase | src/components/ui/data-table/DataTable.tsx:69 | a text and a query that differ from another text and query only in letter case give the same search result |
| DataTable.FilterRows | src/components/ui/data-table/DataTable.tsx:63-76 | an empty query or no search column passes the data through; otherwise a row is kept iff it is in the data and its search-column value matches |
| DataTable.FilterRowsExact | src/components/ui/data-table/DataTable.tsx:66-75 | the filtered view keeps the data's order and the exact multiplicity of each matching row |
| DataTable.FilterRowsAppend | src/components/ui/data-table/DataTable.tsx:66-75 | searching two parts of the data separately and joining the results is searching their concatenation |
| DataTable.SortRows | src/components/ui/data-table/DataTable.tsx:79-98 | with no sort state the sorted view is the filtered view itself; otherwise it is a permutation of it |
| DataTable.CompareValues | src/components/ui/data-table/DataTable.tsx:83-96 | equal values compare as 0; two distinct strings compare by `localeCompare`; two numbers compare by their numeric order |
| DataTable.CompareValuesAntisymmetric | src/components/ui/data-table/DataTable.tsx:83-96 | between two strings or two numbers, swapping the operands turns "greater" into "less" and back |
| DataTable.RowOrderConnex | src/components/ui/data-table/DataTable.tsx:83-96 | on a column of only strings or only numbers, the comparator never says "greater" both ways, in either direction |
| DataTable.RowOrderTransitive | src/components/ui/data-table/DataTable.tsx:83-96 | on a column of only strings or only numbers, "not after" is transitive in either direction |
| DataTable.SortRowsOrdered | src/components/ui/data-table/DataTable.tsx:79-98 | on such a column, the ascending view is ordered by the comparator and the descending view by its negation, between any two positions |
| DataTable.SortedStringColumn | src/components/ui/data-table/DataTable.tsx:79-98 | on a column of strings, the value in each row of the sorted view is equal to, or not after (in `localeCompare` order) every later row's value; descending, not before it |
| DataTable.Toggle | src/components/ui/data-table/DataTable.tsx:109-117 | a click always leaves the sort unset or on the clicked column; it clears the sort exactly from descending on that column, and reaches descending exactly from ascending on it |
| DataTable.ToggleThrice | src/components/ui/data-table/DataTable.tsx:109-117 | three clicks on one header restore its previous sort state, or clear a sort that was on another column |
| DataTable.IconFor | src/components/ui/data-table/DataTable.tsx:125-132 | the up arrow shows exactly when the sort is ascending on this column, the down arrow exactly when descending on it |
| DataTable.IconFollowsToggle | src/components/ui/data-table/DataTable.tsx:125-132 | a click advances the clicked header's icon (neutral, up, down, neutral) and shows neutral on every other header |
| DataTable.PageCount | src/components/ui/data-table/DataTable.tsx:135 | the page count is the least number of pages that hold all rows; it is 0 exactly for no rows |
| DataTable.DisplayedPageCount | src/components/ui/data-table/DataTable.tsx:243 | the displayed page total is the page count when that is positive, and 1 when there are no pages (`pageCount \|\| 1`) |
| DataTable.PageSlice | src/components/ui/data-table/DataTable.tsx:104-105 | the page holds at most a page size of consecutive rows starting at page × size, and is empty past the end |
| DataTable.Paginate | src/components/ui/data-table/DataTable.tsx:101-106 | with pagination off the paged view is the whole sorted view; with it on it holds at most a page size of rows, and its i-th row is row page × size + i of the sorted view |
| DataTable.PageNonEmptyIff | src/components/ui/data-table/DataTable.tsx:101-135 | a page holds rows exactly when its index is below the page count |
| DataTable.ConcatPagesPrefix | src/components/ui/data-table/DataTable.tsx:104-105 | the first k pages, joined, are the first k × size rows |
| DataTable.PagesCoverRows | src/components/ui/data-table/DataTable.tsx:101-135 | all pages joined in order are exactly the sorted rows |
| DataTable.Click | src/components/ui/data-table/DataTable.tsx:249-277 | clicking a disabled navigation button leaves the page unchanged |
| DataTable.EnabledIffMoves | src/components/ui/data-table/DataTable.tsx:250-277 | a navigation button is enabled exactly when clicking it changes the page |
| DataTable.ClickStaysInRange | src/components/ui/data-table/DataTable.tsx:249-277 | from a page inside the range, every navigation button keeps the page inside it |
| DataTable.ClickMoves | src/components/ui/data-table/DataTable.tsx:249-277 | for an enabled button: first goes to page 0, previous goes back one page, next goes forward one page from inside the range, last goes to the last page |
| DataTable.NextFromPastEnd | src/components/ui/data-table/DataTable.tsx:267-268 | a page index past the end is brought back to the last page by "next" |
| DataTable.ViewsOf | src/components/ui/data-table/DataTable.tsx:63-106 | the paged view is no longer than the sorted view, which has exactly the rows of the filtered view (same multiset), which is no longer than the data; with no active search the filtered view is the data; with no sort the sorted view is the filtered view; with pagination off the paged view is the sorted view, with it on it is the page of the sorted view |
| DataTable.ViewRowsComeFromData | src/components/ui/data-table/DataTable.tsx:63-106 | every displayed row is a row of the caller's data, and it satisfies the search when a search is active |
| DataTable.SortedViewIsMatchingData | src/components/ui/data-table/DataTable.tsx:63-98 | the sorted view holds exactly the data rows that satisfy an active search (all rows when none is active), each as often as in the data |
| DataTable.FilteredViewKeepsOrder | src/components/ui/data-table/DataTable.tsx:63-98 | the filtered view lists its rows in the order the data does, and so does the sorted view when no sort is set |
| DataTable.SortedViewFollowsSort | src/components/ui/data-table/DataTable.tsx:79-98 | with a sort set on a column of only strings or only numbers, the table's sorted view is ordered by that column in the chosen direction between any two positions |
| DataTable.InitialViewIsData | src/components/ui/data-table/DataTable.tsx:55-106 | with no query, no sort and no pagination, the table shows its input unchanged |
| DataTable.BodyFor | src/components/ui/data-table/DataTable.tsx:180-212 | loading shows only the loader; otherwise the page's rows, or the single "no data" row when the page is empty |
| DataTable.BodyRowCount | src/components/ui/data-table/DataTable.tsx:180-212 | loading renders exactly one row whatever the data; otherwise at least one row is rendered |
| DataTable.FooterFor | src/components/ui/data-table/DataTable.tsx:218-221 | the footer exists exactly when pagination is on and the sorted view is non-empty; its fields are given by FooterConsistent |
| DataTable.FooterConsistent | src/components/ui/data-table/DataTable.tsx:218-243 | whenever the footer is shown, it shows the page's row count, the sorted view's row count, the page index plus one and the displayed page total (`pageCount \|\| 1`); the shown count is at most the total and the page size, and positive exactly when the page number is within the total |
| DataTable.Step | src/components/ui/data-table/DataTable.tsx:109-281 | typing sets the search text when the search box is shown and does nothing otherwise; a sortable header click toggles the sort (any other header does nothing); an offered page size is taken when the footer is shown; a navigation click moves the page as `Click` says when the footer is shown; a change of search text or page size resets the page to 0; no field changes except through its own action |
| DataTable.SearchBoxFilters | src/components/ui/data-table/DataTable.tsx:140 | once the search box is shown, the search is active exactly when the typed text is non-empty |
| DataTable.Run | src/components/ui/data-table/DataTable.tsx:55-60 | any sequence of user actions keeps the page size one of 10, 20, 30, 50 |
| DataTable.RunKeepsSortOnSortable | src/components/ui/data-table/DataTable.tsx:164-171 | whatever the user does and whatever rows arrive, the sort is only ever on a sortable column |
| DataTable.InitialIsValid | src/components/ui/data-table/DataTable.tsx:55-60 | the mounted table starts unsorted with a page size from the offered list |
| Entities.ClientRecord | src/components/api/apiClient.ts:96-104 | a client's row has exactly the seven keys of the client type, each holding that client field's string |
| Entities.SaleRecord | src/components/api/apiClient.ts:106-113 | a sale's row has exactly the six keys of the sale type: the amount as a number, the product list as neither string nor number, and id, clientId, status and date as that sale's strings |
| Entities.TaskRecord | src/components/api/apiClient.ts:115-123 | a task's row has exactly the seven keys of the task type, each holding that task field's string |
| Entities.ClientRecordInjective | src/components/api/apiClient.ts:96-104 | two clients give the same row exactly when they are equal |
| Entities.TaskRecordInjective | src/components/api/apiClient.ts:115-123 | two tasks give the same row exactly when they are equal |
| Entities.SaleRecordIgnoresProducts | src/components/api/apiClient.ts:106-113 | two sales give the same row exactly when they agree on everything except their product lines |
| Entities.ClientRows | src/pages/clients/ClientsPage.tsx:204 | the table receives one record per client, in list order |
| Entities.SaleRows | src/pages/sales/SalesPage.tsx:214 | the table receives one record per sale, in list order |
| Entities.TaskRows | src/pages/tasks/TasksPage.tsx:275 | the table receives one record per task, in list order |
| ListOps.AfterDelete | src/pages/clients/ClientsPage.tsx:55-70 | without confirmation, or with a reply other than 200, the list is unchanged; otherwise exactly the records with other ids remain |
| ListOps.AfterDeleteExact | src/pages/clients/ClientsPage.tsx:59 | a successful delete keeps the other records in order and with their multiplicity |
| ListOps.AfterDeleteIdempotent | src/pages/clients/ClientsPage.tsx:59 | deleting an id that is already gone leaves the list unchanged |
| ListOps.WithStatus | src/pages/clients/ClientsPage.tsx:96-98 | the empty choice lists everything; otherwise exactly the records with that status |
| ListOps.WithStatusExact | src/pages/sales/SalesPage.tsx:104-106 | a chosen status keeps its records in order and with their multiplicity |
| SaleForm.NewForm | src/pages/sales/SaleForm.tsx:30-43 | a new form has no client, no lines and amount 0, so the amount equals the sum of the lines |
| SaleForm.EditModeCases | src/pages/sales/SaleForm.tsx:24 | the form is in edit mode iff the route id is present and is not "new" |
| SaleForm.Total | src/pages/sales/SaleForm.tsx:122-125 | no lines total 0; lines that each passed the add checks total a positive amount exactly when there is at least one |
| SaleForm.TotalAppend | src/pages/sales/SaleForm.tsx:122-125 | appending a line adds its price × quantity to the total |
| SaleForm.TotalSplit | src/pages/sales/SaleForm.tsx:146-149 | splitting the lines by any criterion splits the total into the totals of the two parts |
| SaleForm.TempId | src/pages/sales/SaleForm.tsx:116 | the temporary id of a line is never empty |
| SaleForm.AddProduct | src/pages/sales/SaleForm.tsx:106-140 | a draft with no name or a non-positive price or quantity changes nothing; an accepted draft becomes the one new last line, with its own id or a temporary one, the amount becomes the sum over the lines, the draft is reset and no other field changes |
| SaleForm.RemoveProduct | src/pages/sales/SaleForm.tsx:142-156 | exactly the lines with other ids remain, in their order and each as often as before; the amount is the sum over them; nothing else changes |
| SaleForm.AddRaisesAmount | src/pages/sales/SaleForm.tsx:119-131 | an accepted line raises a consistent amount by exactly its price × quantity, which is positive |
| SaleForm.RemoveLowersAmount | src/pages/sales/SaleForm.tsx:142-155 | removing an id lowers a consistent amount by exactly the total of the removed lines |
| SaleForm.Submit | src/pages/sales/SaleForm.tsx:158-186 | a missing client is reported first, then an empty line list; neither reaches the server; otherwise the fields go out unchanged, as an update exactly in edit mode with a non-empty id |
| SaleForm.SubmitAfterAdd | src/pages/sales/SaleForm.tsx:106-186 | after an accepted add, a form with a client passes both submit guards |
| SaleForm.Apply | src/pages/sales/SaleForm.tsx:92-104 | a client, status or date edit sets that one form field and nothing else; a draft edit replaces the draft and nothing else; none of them touches the product lines; add and remove are the operations of the same names |
| SaleForm.EditsKeepAmountConsistent | src/pages/sales/SaleForm.tsx:92-156 | if the amount equals the sum of the lines, it still does after any sequence of edits |
| SaleForm.NewFormStaysConsistent | src/pages/sales/SaleForm.tsx:30-156 | in a new form, the amount equals the sum of the lines after any sequence of edits |
| TasksPage.FilterTasks | src/pages/tasks/TasksPage.tsx:136-140 | a task is listed iff it is in the list and matches the status filter (or it is empty) and the priority filter (or it is empty) |
| TasksPage.FilterTasksAll | src/pages/tasks/TasksPage.tsx:136-140 | with both filters empty, every task is listed in order |
| TasksPage.FilterTasksExact | src/pages/tasks/TasksPage.tsx:136-140 | the listed tasks keep their order and multiplicity |
| TasksPage.FilterTasksCompose | src/pages/tasks/TasksPage.tsx:136-140 | the status and priority filters are independent: applying one after the other is applying both |
| TasksPage.DeleteTask | src/pages/tasks/TasksPage.tsx:55-81 | without confirmation or without status 200 the list is unchanged; otherwise exactly the tasks with other ids remain |
| TasksPage.ChangeTaskStatus | src/pages/tasks/TasksPage.tsx:83-91 | on status 200 the tasks with that id get the new status and nothing else changes (length, order, other fields, other tasks); any other status changes nothing |
| TasksPage.ChangeTaskStatusIdempotent | src/pages/tasks/TasksPage.tsx:87 | repeating a successful status change changes nothing more |
| TasksPage.OverlapSequential | src/pages/tasks/TasksPage.tsx:54-87 | a status change of one task and then a delete of another, each applied to the current list, keep the changed task with its new status and drop every task with the deleted id |
| TasksPage.OverlapLosesStatusChange | src/pages/tasks/TasksPage.tsx:54-87 | on two tasks, the handlers as written lose the status change when the delete's reply arrives second, while the sequential update keeps it |
| TasksPage.SortableKeys | src/pages/tasks/TasksPage.tsx:142-218 | exactly title, status, priority, due date and assignee are sortable |
| TasksPage.NeverSortedByActions | src/pages/tasks/TasksPage.tsx:186-279 | whatever the user does, the task table is never sorted by its actions column |
| TasksPage.TitleSearch | src/pages/tasks/TasksPage.tsx:277 | the task search is a case-insensitive substring test on the title |
| TasksPage.SortedTasksOrdered | src/pages/tasks/TasksPage.tsx:142-185 | every sortable task column holds strings, so its sorted views are fully ordered |
| ClientsPage.FilterClients | src/pages/clients/ClientsPage.tsx:96-98 | the empty filter lists every client; otherwise exactly the clients with that status |
| ClientsPage.FilterClientsExact | src/pages/clients/ClientsPage.tsx:96-98 | a chosen status keeps its clients in order and with their multiplicity |
| ClientsPage.DeleteClient | src/pages/clients/ClientsPage.tsx:54-80 | without confirmation or without status 200 the list is unchanged; otherwise exactly the clients with other ids remain |
| ClientsPage.SortableKeys | src/pages/clients/ClientsPage.tsx:100-165 | exactly name, company, email, status and registration date are sortable |
| ClientsPage.NeverSortedByPhoneOrActions | src/pages/clients/ClientsPage.tsx:117-206 | whatever the user does, the client table is never sorted by phone or by its actions column |
| ClientsPage.NameSearch | src/pages/clients/ClientsPage.tsx:206 | the client search is a case-insensitive substring test on the name |
| ClientsPage.SortedClientsOrdered | src/pages/clients/ClientsPage.tsx:100-132 | every sortable client column holds strings, so its sorted views are fully ordered |
| SalesPage.FilterSales | src/pages/sales/SalesPage.tsx:104-106 | the empty filter lists every sale; otherwise exactly the sales with that status |
| SalesPage.FilterSalesExact | src/pages/sales/SalesPage.tsx:104-106 | a chosen status keeps its sales in order and with their multiplicity |
| SalesPage.DeleteSale | src/pages/sales/SalesPage.tsx:54-80 | without confirmation or without status 200 the list is unchanged; otherwise exactly the sales with other ids remain |
| SalesPage.SortableKeys | src/pages/sales/SalesPage.tsx:108-175 | exactly id, client id, amount, status and date are sortable |
| SalesPage.NeverSortedByProductsOrActions | src/pages/sales/SalesPage.tsx:138-216 | whatever the user does, the sales table is never sorted by products or by its actions column |
| SalesPage.IdSearch | src/pages/sales/SalesPage.tsx:216 | the id is a string, so the sales search is a case-insensitive substring test on it |
| SalesPage.SortedSalesOrdered | src/pages/sales/SalesPage.tsx:108-137 | amount holds numbers and the other sortable columns strings, so every sorted view is fully ordered |
| Scenarios.SearchScenario | src/components/ui/data-table/DataTable.tsx:63-76 | searching names for "al" keeps Alice and drops Bob |
| Scenarios.PagingScenario | src/components/ui/data-table/DataTable.tsx:104-276 | 25 rows in pages of 10 make three pages; "last" leads to the third page, which holds rows 20 to 24 |
| Scenarios.AmountOrderValues | src/components/ui/data-table/DataTable.tsx:83-98 | on numeric amounts the ascending comparator puts the smaller amount first and the larger one after it |
| Scenarios.AscendingScenario | src/components/ui/data-table/DataTable.tsx:79-117 | the first click on the amount header sorts amounts 300, 100, 200 to 100, 200, 300 |
| Scenarios.DescendingScenario | src/components/ui/data-table/DataTable.tsx:79-117 | the second click on the same header sorts them to 300, 200, 100 |
| Scenarios.ThirdClickScenario | src/components/ui/data-table/DataTable.tsx:79-117 | the third click clears the sort and the rows come back in their original order |

## Left out

- Rendering: JSX, icons, badges, toasts, the `render` callbacks of columns, `Intl` currency formatting and `toLocaleDateString`. They are presentation only.
- The network: the API client (`fetch`, bearer token, `localStorage`). Its effect on the pages is the reply status, which is a parameter here.
- Navigation after save and the loading of clients and of an existing sale into the form. These are asynchronous I/O. A loaded sale may carry any amount; the amount invariant is re-established by its first add or remove.
- React scheduling: `useMemo` and `useEffect` are modelled as a synchronous recompute. The render between a search/page-size change and the page-reset effect is not modelled.
- `Text.Lower`: models ASCII case mapping only, because full Unicode case mapping is a table outside this code.
- `Text.IntToDecimal`: models integers only. Fractions, `NaN`, infinities and the exponent form JavaScript uses from 10^21 on are not modelled, because numbers are unbounded integers here.
- `DataTable.CompareValues`: compares only strings and numbers as JavaScript does. Everything else is one "other" value (`undefined`, `null`, booleans, dates, arrays, objects). Its comparisons differ from JavaScript's `===` and `>`:
  - two "other" values always compare as 0. In JavaScript, `true > false`, dates compare by time value, and two distinct arrays are not `===`, so they compare as -1;
  - any mix of types compares as -1. In JavaScript, `5 > null` is true, and a string is converted to a number before it is compared with a number.
  Ordering is claimed only for columns that hold only strings or only numbers, which covers every sortable column of the three pages.
- `DataTable.SortRows`: the engine's sort algorithm is replaced by an insertion sort. The claim is a permutation that is ordered, not a particular placement of equal rows.
- `localeCompare`'s locale rules: they are abstracted into the `LocaleOrder` requirement on a comparator parameter.
- Prices and quantities are integers. The `Number(value)` conversion of the product inputs and floating-point sums are not modelled.
- Overlapping requests on the list pages: each reply handler is modelled as applying its update to the list as it is when the reply arrives. The code applies it to the list it saw when the handler was called (src/pages/tasks/TasksPage.tsx:60 and :87, src/pages/clients/ClientsPage.tsx:59, src/pages/sales/SalesPage.tsx:59), so an earlier reply's update can be lost. The one interleaving under "## Findings" is modelled as written; the others are not.
- The client and task forms (`ClientForm.tsx`, `TaskForm.tsx`), routing (`App.tsx`), the dashboard (`Index.tsx`) and the column-header helper (`DataTableColumnHeader.tsx`) are not part of this model.

## Findings

| source | as written | input that shows it | evidently intended | confidence | as-written member | corrected member |
|---|---|---|---|---|---|---|
| src/pages/tasks/TasksPage.tsx:54-87 | the delete and status-change handlers set the list to an update of the `tasks` value captured when the handler ran | tasks "1" (status "todo") and "2": change "1" to done, then delete "2" before the first reply; the status reply arrives first | the later reply updates the list as the earlier reply left it, so task "1" stays done | not executed; a reading of React closure semantics | TasksPage.OverlapAsWritten, TasksPage.OverlapLosesStatusChange | TasksPage.OverlapSequential |

=== FILE: clientspage.dfy ===
/**
  The client list: a status pre-filter in front of the data table, deletion
  after the server's reply, and the table's column configuration.
 */
module ClientsPage {
  import opened Wrappers
  import opened Records
  import opened Text
  import opened Entities
  import opened DataTable
  import Seqs
  import ListOps
  import Sorting

  /** `filteredClients`: the empty choice lists every client. */
  function FilterClients(clients: seq<Client>, statusFilter: string): (r: seq<Client>)
    ensures statusFilter == "" ==> r == clients
    ensures statusFilter != "" ==> forall c :: c in r <==> c in clients && c.status == statusFilter
  {
    ListOps.WithStatus(clients, (c: Client) => c.status, statusFilter)
  }

  /** A chosen status lists its clients in their original order, each as often as before. */
  lemma FilterClientsExact(clients: seq<Client>, statusFilter: string)
    requires statusFilter != ""
    ensures Seqs.IsSubsequence(FilterClients(clients, statusFilter), clients)
    ensures forall c :: multiset(FilterClients(clients, statusFilter))[c]
                     == (if c.status == statusFilter then multiset(clients)[c] else 0)
  {
    ListOps.WithStatusExact(clients, (c: Client) => c.status, statusFilter);
  }

  /** `handleDeleteClient`, given the confirmation answer and the reply status. */
  function DeleteClient(clients: seq<Client>, id: string, confirmed: bool, status: int): (r: seq<Client>)
    ensures !confirmed || status != 200 ==> r == clients
    ensures confirmed && status == 200 ==> forall c :: c in r <==> c in clients && c.id != id
  {
    ListOps.AfterDelete(clients, (c: Client) => c.id, id, confirmed, status)
  }

  /** The table's columns; "phone" and "actions" have no sort button. */
  const Columns: seq<Column> := [
    Column("name", "Имя", true),
    Column("company", "Компания", true),
    Column("email", "Email", true),
    Column("phone", "Телефон", false),
    Column("status", "Статус", true),
    Column("createdAt", "Дата регистрации", true),
    Column("actions", "Действия", false)]

  /** The table searches names; search and pagination keep their defaults. */
  const TableConfig: Config := DefaultConfig(Columns, Some("name"))

  lemma SortableKeys(key: string)
    ensures IsSortableKey(Columns, key) <==> key in {"name", "company", "email", "status", "createdAt"}
  {
    if key in {"name", "company", "email", "status", "createdAt"} {
      var i := if key == "name" then 0 else if key == "company" then 1 else if key == "email" then 2
        else if key == "status" then 4 else 5;
      assert Columns[i].key == key && Columns[i].sortable;
    }
  }

  /** Whatever the user does, the client table is never sorted by phone or by its actions column. */
  lemma NeverSortedByPhoneOrActions(inputs: seq<Input>, localeCompare: (string, string) -> int)
    ensures var s := Run(TableConfig, Initial, inputs, localeCompare);
      s.sort.Unsorted? || (s.sort.column != "phone" && s.sort.column != "actions")
  {
    RunKeepsSortOnSortable(TableConfig, Initial, inputs, localeCompare);
    var s := Run(TableConfig, Initial, inputs, localeCompare);
    if s.sort.SortBy? {
      SortableKeys(s.sort.column);
    }
  }

  /** The name search is a case-insensitive substring test on the name. */
  lemma NameSearch(c: Client, query: string)
    ensures Matches(Field(ClientRecord(c), "name"), query) <==> exists k :: OccursAt(Lower(c.name), Lower(query), k)
  {
    MatchesMeaning(Field(ClientRecord(c), "name"), query);
  }

  /** Every client column holds strings, so a sort on any sortable column orders the rows fully. */
  lemma SortedClientsOrdered(clients: seq<Client>, key: string, d: Direction, localeCompare: (string, string) -> int)
    requires IsSortableKey(Columns, key)
    requires LocaleOrder(localeCompare)
    ensures Sorting.PairwiseOrdered(SortRows(ClientRows(clients), SortBy(key, d), localeCompare), RowOrder(key, d, localeCompare))
  {
    SortableKeys(key);
    var rows := ClientRows(clients);
    forall r | r in rows
      ensures Field(r, key).VStr?
    {
      var i :| 0 <= i < |rows| && rows[i] == r;
      assert r == ClientRecord(clients[i]);
    }
    SortRowsOrdered(rows, key, d, localeCompare);
  }
}

=== FILE: datatable.dfy ===
/**
  The generic data table: from its input rows and its internal state
  (search text, sort state, page index, page size) it derives a filtered,
  a sorted and a paged view, and it reacts to the user's clicks and typing
  by a small state machine.
 */
module DataTable {
  import opened Wrappers
  import opened Records
  import opened Text
  import Seqs
  import Sorting

  /** A column descriptor; its optional `render` callback is presentation only. */
  datatype Column = Column(key: string, title: string, sortable: bool)

  /** The caller-supplied options (`isLoading` is passed separately, per render). */
  datatype Config = Config(
    columns: seq<Column>,
    searchable: bool,
    searchColumn: Option<string>,
    pagination: bool)

  /** The defaults of the component: search and pagination on, no search column. */
  function DefaultConfig(columns: seq<Column>, searchColumn: Option<string>): Config
  {
    Config(columns, true, searchColumn, true)
  }

  datatype Direction = Asc | Desc

  datatype SortState = Unsorted | SortBy(column: string, direction: Direction)

  datatype TableState = TableState(query: string, sort: SortState, page: nat, pageSize: nat)

  /** The page sizes the size selector offers. */
  const PageSizeOptions: seq<nat> := [10, 20, 30, 50]

  /** The state a freshly mounted table starts in. */
  const Initial: TableState := TableState("", Unsorted, 0, 10)

  predicate ValidState(s: TableState)
  {
    s.pageSize in PageSizeOptions
  }

  // ---------------------------------------------------------------------------
  // Filtering

  /** A search column is designated when it is present and not the empty string. */
  predicate HasSearchColumn(searchColumn: Option<string>)
  {
    searchColumn.Some? && searchColumn.value != ""
  }

  /** Filtering happens only for a non-empty query on a designated column. */
  predicate SearchActive(query: string, searchColumn: Option<string>)
  {
    query != "" && HasSearchColumn(searchColumn)
  }

  /** Whether a field value satisfies the search text. */
  predicate Matches(v: Value, query: string)
  {
    match v
    case VStr(s) => Contains(Lower(s), Lower(query))
    case VNum(n) => Contains(IntToDecimal(n), query)
    case VOther => false
  }

  /** What a match means: a lower-cased substring for strings, a substring of the numeral for numbers. */
  lemma MatchesMeaning(v: Value, query: string)
    ensures v.VStr? ==> (Matches(v, query) <==> exists k :: OccursAt(Lower(v.str), Lower(query), k))
    ensures v.VNum? ==> (Matches(v, query) <==> exists k :: OccursAt(IntToDecimal(v.num), query, k))
    ensures v.VOther? ==> !Matches(v, query)
  {
    match v
    case VStr(s) => ContainsIffOccurs(Lower(s), Lower(query));
    case VNum(n) => ContainsIffOccurs(IntToDecimal(n), query);
    case VOther =>
  }

  /** The search is insensitive to the case of both the text and the query. */
  lemma MatchesIgnoresCase(s: string, query: string)
    ensures Matches(VStr(s), query) == Matches(VStr(Lower(s)), Lower(query))
  {
    LowerIdempotent(s);
    LowerIdempotent(query);
  }

  /** Texts and queries that differ only in the case of their letters match alike. */
  lemma MatchesUpToCase(s: string, t: string, query: string, query': string)
    requires EqualIgnoringCase(s, t)
    requires EqualIgnoringCase(query, query')
    ensures Matches(VStr(s), query) == Matches(VStr(t), query')
  {
    LowerEqualIff(s, t);
    LowerEqualIff(query, query');
  }

  function KeepRow(column: string, query: string): Record -> bool
  {
    (r: Record) => Matches(Field(r, column), query)
  }

  /** The `filteredData` view. */
  function FilterRows(data: seq<Record>, query: string, searchColumn: Option<string>): (r: seq<Record>)
    ensures !SearchActive(query, searchColumn) ==> r == data
    ensures SearchActive(query, searchColumn) ==>
      forall x :: x in r <==> x in data && Matches(Field(x, searchColumn.value), query)
    ensures |r| <= |data|
  {
    if !SearchActive(query, searchColumn) then data
    else Seqs.Filter(data, KeepRow(searchColumn.value, query))
  }

  /** The filtered view keeps the order of the rows it keeps, each as often as in the data. */
  lemma FilterRowsExact(data: seq<Record>, query: string, searchColumn: Option<string>)
    requires SearchActive(query, searchColumn)
    ensures Seqs.IsSubsequence(FilterRows(data, query, searchColumn), data)
    ensures forall x :: multiset(FilterRows(data, query, searchColumn))[x]
                     == (if Matches(Field(x, searchColumn.value), query) then multiset(data)[x] else 0)
  {
    var keep := KeepRow(searchColumn.value, query);
    Seqs.FilterIsSubsequence(data, keep);
    Seqs.FilterCounts(data, keep);
  }

  /** Searching the data in two parts is searching each part. */
  lemma FilterRowsAppend(a: seq<Record>, b: seq<Record>, query: string, searchColumn: Option<string>)
    ensures FilterRows(a + b, query, searchColumn)
         == FilterRows(a, query, searchColumn) + FilterRows(b, query, searchColumn)
  {
    if SearchActive(query, searchColumn) {
      Seqs.FilterAppend(a, b, KeepRow(searchColumn.value, query));
    }
  }

  // ---------------------------------------------------------------------------
  // Sorting

  /** JavaScript's `>` on two field values, for numbers; other mixes never compare greater. */
  predicate Greater(a: Value, b: Value)
  {
    a.VNum? && b.VNum? && a.num > b.num
  }

  /** The comparator of the sort, before the direction is applied. */
  function CompareValues(a: Value, b: Value, localeCompare: (string, string) -> int): (c: int)
    ensures a == b ==> c == 0
    ensures a.VNum? && b.VNum? ==> (c < 0 <==> a.num < b.num) && (c == 0 <==> a.num == b.num)
    ensures a.VStr? && b.VStr? && a != b ==> c == localeCompare(a.str, b.str)
  {
    if a == b then 0
    else if a.VStr? && b.VStr? then localeCompare(a.str, b.str)
    else if Greater(a, b) then 1
    else -1
  }

  function Directed(d: Direction, c: int): int
  {
    if d == Asc then c else -c
  }

  /** The row comparator for a sort on `column` in direction `d`. */
  function RowOrder(column: string, d: Direction, localeCompare: (string, string) -> int): (Record, Record) -> int
  {
    (a: Record, b: Record) => Directed(d, CompareValues(Field(a, column), Field(b, column), localeCompare))
  }

  /** What a locale comparison promises: opposite signs when swapped, and a transitive "not after". */
  ghost predicate LocaleOrder(localeCompare: (string, string) -> int)
  {
    && (forall a, b :: localeCompare(a, b) > 0 <==> localeCompare(b, a) < 0)
    && (forall a, b, c :: localeCompare(a, b) <= 0 && localeCompare(b, c) <= 0 ==> localeCompare(a, c) <= 0)
  }

  /** Between two strings or two numbers, swapping the operands flips the comparison's sign. */
  lemma CompareValuesAntisymmetric(a: Value, b: Value, localeCompare: (string, string) -> int)
    requires LocaleOrder(localeCompare)
    requires (a.VStr? && b.VStr?) || (a.VNum? && b.VNum?)
    ensures CompareValues(a, b, localeCompare) > 0 <==> CompareValues(b, a, localeCompare) < 0
  {
    if a.VStr? && a != b {
      assert localeCompare(a.str, b.str) > 0 <==> localeCompare(b.str, a.str) < 0;
    }
  }

  /** All rows hold a string in `column`, or all hold a number there. */
  ghost predicate Homogeneous(rows: seq<Record>, column: string)
  {
    || (forall r :: r in rows ==> Field(r, column).VStr?)
    || (forall r :: r in rows ==> Field(r, column).VNum?)
  }

  /** The `sortedData` view: a sorted copy, or the filtered view itself when unsorted. */
  function SortRows(rows: seq<Record>, sort: SortState, localeCompare: (string, string) -> int): (r: seq<Record>)
    ensures sort.Unsorted? ==> r == rows
    ensures multiset(r) == multiset(rows)
    ensures |r| == |rows|
  {
    match sort
    case Unsorted => rows
    case SortBy(column, d) => Sorting.InsertionSort(rows, RowOrder(column, d, localeCompare))
  }

  /** On a homogeneous column, the comparator never says "greater" both ways. */
  lemma RowOrderConnex(rows: seq<Record>, column: string, d: Direction, localeCompare: (string, string) -> int)
    requires Homogeneous(rows, column)
    requires LocaleOrder(localeCompare)
    ensures Sorting.Connex(rows, RowOrder(column, d, localeCompare))
  {
    var cmp := RowOrder(column, d, localeCompare);
    forall a, b | a in rows && b in rows && cmp(a, b) > 0
      ensures cmp(b, a) <= 0
    {
      var va, vb := Field(a, column), Field(b, column);
      if va != vb && va.VStr? && vb.VStr? {
        assert localeCompare(va.str, vb.str) > 0 <==> localeCompare(vb.str, va.str) < 0;
        assert localeCompare(vb.str, va.str) > 0 <==> localeCompare(va.str, vb.str) < 0;
      }
    }
  }

  /** On a homogeneous column, "not after" is transitive. */
  lemma RowOrderTransitive(rows: seq<Record>, column: string, d: Direction, localeCompare: (string, string) -> int)
    requires Homogeneous(rows, column)
    requires LocaleOrder(localeCompare)
    ensures Sorting.TransitiveOn(rows, RowOrder(column, d, localeCompare))
  {
    var cmp := RowOrder(column, d, localeCompare);
    forall a, b, c | a in rows && b in rows && c in rows && cmp(a, b) <= 0 && cmp(b, c) <= 0
      ensures cmp(a, c) <= 0
    {
      var va, vb, vc := Field(a, column), Field(b, column), Field(c, column);
      if va.VStr? && vb.VStr? && vc.VStr? && va != vb && vb != vc && va != vc {
        var x, y, z := va.str, vb.str, vc.str;
        if d == Asc {
          assert localeCompare(x, y) <= 0 && localeCompare(y, z) <= 0;
        } else {
          assert localeCompare(x, y) >= 0 && localeCompare(y, z) >= 0;
          assert localeCompare(y, x) <= 0 by {
            assert localeCompare(y, x) > 0 <==> localeCompare(x, y) < 0;
          }
          assert localeCompare(z, y) <= 0 by {
            assert localeCompare(z, y) > 0 <==> localeCompare(y, z) < 0;
          }
          assert localeCompare(z, x) <= 0;
          assert localeCompare(x, z) >= 0 by {
            assert localeCompare(x, z) < 0 <==> localeCompare(z, x) > 0;
          }
        }
      }
    }
  }

  /**
    On a homogeneous column the sorted view is ordered by the comparator, in
    either direction, between any two positions.
   */
  lemma SortRowsOrdered(rows: seq<Record>, column: string, d: Direction, localeCompare: (string, string) -> int)
    requires Homogeneous(rows, column)
    requires LocaleOrder(localeCompare)
    ensures Sorting.PairwiseOrdered(SortRows(rows, SortBy(column, d), localeCompare), RowOrder(column, d, localeCompare))
  {
    var cmp := RowOrder(column, d, localeCompare);
    var sorted := SortRows(rows, SortBy(column, d), localeCompare);
    RowOrderConnex(rows, column, d, localeCompare);
    Sorting.InsertionSortOrdered(rows, cmp);
    forall r | r in sorted
      ensures r in rows
    {
      assert r in multiset(sorted);
    }
    assert Homogeneous(sorted, column);
    RowOrderTransitive(sorted, column, d, localeCompare);
    Sorting.OrderedIsPairwise(sorted, cmp);
  }

  /**
    On a column of strings, each row's value comes before every later row's in
    `localeCompare` order (after it, descending), unless the two are equal.
   */
  lemma SortedStringColumn(rows: seq<Record>, column: string, d: Direction, localeCompare: (string, string) -> int)
    requires forall r :: r in rows ==> Field(r, column).VStr?
    requires LocaleOrder(localeCompare)
    ensures var sorted := SortRows(rows, SortBy(column, d), localeCompare);
      forall i, j :: 0 <= i < j < |sorted| ==>
        var a, b := Field(sorted[i], column), Field(sorted[j], column);
        && a.VStr? && b.VStr?
        && (a == b || (if d == Asc then localeCompare(a.str, b.str) <= 0 else localeCompare(a.str, b.str) >= 0))
  {
    var cmp := RowOrder(column, d, localeCompare);
    var sorted := SortRows(rows, SortBy(column, d), localeCompare);
    SortRowsOrdered(rows, column, d, localeCompare);
    forall i, j | 0 <= i < j < |sorted|
      ensures var a, b := Field(sorted[i], column), Field(sorted[j], column);
        && a.VStr? && b.VStr?
        && (a == b || (if d == Asc then localeCompare(a.str, b.str) <= 0 else localeCompare(a.str, b.str) >= 0))
    {
      assert sorted[i] in multiset(rows) && sorted[j] in multiset(rows);
      assert cmp(sorted[i], sorted[j]) <= 0;
    }
  }

  // ---------------------------------------------------------------------------
  // Header clicks

  /** `handleSort`: another column starts ascending; ascending turns descending; descending clears. */
  function Toggle(sort: SortState, column: string): (r: SortState)
    ensures r.Unsorted? || r.column == column
    ensures r.Unsorted? <==> sort == SortBy(column, Desc)
    ensures r == SortBy(column, Desc) <==> sort == SortBy(column, Asc)
  {
    if sort.Unsorted? || sort.column != column then SortBy(column, Asc)
    else if sort.direction == Asc then SortBy(column, Desc)
    else
      assert sort.SortBy? && sort.direction == Desc;
      assert sort == SortBy(column, Desc);
      Unsorted
  }

  /** Three clicks on one header restore the sort it started with, or clear a sort on another column. */
  lemma ToggleThrice(sort: SortState, column: string)
    ensures Toggle(Toggle(Toggle(sort, column), column), column)
         == if sort.Unsorted? || sort.column == column then sort else Unsorted
  {
  }

  datatype SortIcon = Neutral | ArrowUp | ArrowDown

  /** `getSortIcon`: the icon shown in a sortable column's header. */
  function IconFor(sort: SortState, column: string): (i: SortIcon)
    ensures i == ArrowUp <==> sort == SortBy(column, Asc)
    ensures i == ArrowDown <==> sort == SortBy(column, Desc)
  {
    match sort
    case Unsorted => Neutral
    case SortBy(c, Asc) => if c == column then ArrowUp else Neutral
    case SortBy(c, Desc) => if c == column then ArrowDown else Neutral
  }

  function NextIcon(i: SortIcon): SortIcon
  {
    match i
    case Neutral => ArrowUp
    case ArrowUp => ArrowDown
    case ArrowDown => Neutral
  }

  /** A click advances the clicked header's icon one step and resets every other header's icon. */
  lemma IconFollowsToggle(sort: SortState, clicked: string, other: string)
    requires other != clicked
    ensures IconFor(Toggle(sort, clicked), clicked) == NextIcon(IconFor(sort, clicked))
    ensures IconFor(Toggle(sort, clicked), other) == Neutral
  {
  }

  predicate IsSortableKey(columns: seq<Column>, key: string)
  {
    exists i :: 0 <= i < |columns| && columns[i].key == key && columns[i].sortable
  }

  // ---------------------------------------------------------------------------
  // Pages

  function Min(a: int, b: int): int
  {
    if a <= b then a else b
  }

  /** `Math.ceil(n / size)`. */
  function PageCount(n: nat, size: nat): (c: nat)
    requires size > 0
    ensures c * size >= n
    ensures c > 0 ==> (c - 1) * size < n
    ensures c == 0 <==> n == 0
  {
    var q := n / size;
    assert n == q * size + n % size;
    if n % size == 0 then q
    else
      assert (q + 1) * size == q * size + size;
      q + 1
  }

  /** `pageCount || 1`: the page total shown to the user. */
  function DisplayedPageCount(c: nat): (d: nat)
    ensures d >= 1
    ensures c > 0 ==> d == c
    ensures c == 0 ==> d == 1
  {
    if c == 0 then 1 else c
  }

  /** `rows.slice(page * size, page * size + size)`. */
  function PageSlice(rows: seq<Record>, page: nat, size: nat): (r: seq<Record>)
    ensures |r| == if page * size >= |rows| then 0 else Min(size, |rows| - page * size)
    ensures forall i :: 0 <= i < |r| ==> r[i] == rows[page * size + i]
  {
    var start := page * size;
    if start >= |rows| then [] else rows[start..Min(start + size, |rows|)]
  }

  /** The `paginatedData` view. */
  function Paginate(rows: seq<Record>, pagination: bool, page: nat, size: nat): (r: seq<Record>)
    ensures !pagination ==> r == rows
    ensures pagination ==> |r| <= size
    ensures |r| <= |rows|
    ensures pagination ==> var start := page * size;
      forall i :: 0 <= i < |r| ==> start + i < |rows| && r[i] == rows[start + i]
  {
    if pagination then PageSlice(rows, page, size) else rows
  }

  lemma MulMonotone(a: nat, b: nat, k: nat)
    requires a <= b
    ensures a * k <= b * k
  {
    assert b * k == a * k + (b - a) * k;
  }

  /** A page holds rows exactly when its index is below the page count. */
  lemma PageNonEmptyIff(rows: seq<Record>, page: nat, size: nat)
    requires size > 0
    ensures |PageSlice(rows, page, size)| > 0 <==> page < PageCount(|rows|, size)
  {
    var c := PageCount(|rows|, size);
    var n := |rows|;
    if page < c {
      MulMonotone(page, c - 1, size);
      assert page * size < n;
    } else {
      MulMonotone(c, page, size);
      assert page * size >= n;
    }
  }

  /** Pages `0 .. count - 1`, laid end to end. */
  function ConcatPages(rows: seq<Record>, size: nat, count: nat): seq<Record>
  {
    if count == 0 then [] else ConcatPages(rows, size, count - 1) + PageSlice(rows, count - 1, size)
  }

  lemma {:induction false} ConcatPagesPrefix(rows: seq<Record>, size: nat, count: nat)
    requires size > 0
    ensures ConcatPages(rows, size, count) == rows[..Min(count * size, |rows|)]
  {
    if count > 0 {
      ConcatPagesPrefix(rows, size, count - 1);
      var start := (count - 1) * size;
      MulSucc(count - 1, size);
      var lo, hi := Min(start, |rows|), Min(start + size, |rows|);
      PageSliceIsSlice(rows, count - 1, size);
      assert ConcatPages(rows, size, count) == rows[..lo] + rows[lo..hi];
      Seqs.SliceJoin(rows, lo, hi);
      assert hi == Min(count * size, |rows|);
    }
  }

  lemma PageSliceIsSlice(rows: seq<Record>, page: nat, size: nat)
    ensures PageSlice(rows, page, size) == rows[Min(page * size, |rows|)..Min(page * size + size, |rows|)]
  {
  }

  lemma MulSucc(a: nat, k: nat)
    ensures (a + 1) * k == a * k + k
  {
  }

  /** The pages, in order, are exactly the rows: nothing is lost, repeated or reordered. */
  lemma PagesCoverRows(rows: seq<Record>, size: nat)
    requires size > 0
    ensures ConcatPages(rows, size, PageCount(|rows|, size)) == rows
  {
    ConcatPagesPrefix(rows, size, PageCount(|rows|, size));
  }

  datatype NavButton = FirstPage | PreviousPage | NextPage | LastPage

  /** The `disabled` rule of each navigation button. */
  predicate NavDisabled(b: NavButton, page: nat, pageCount: nat)
  {
    match b
    case FirstPage => page == 0
    case PreviousPage => page == 0
    case NextPage => page == pageCount - 1 || pageCount == 0
    case LastPage => page == pageCount - 1 || pageCount == 0
  }

  /** The page a click leads to; a disabled button does nothing. */
  function Click(b: NavButton, page: nat, pageCount: nat): (p: nat)
    ensures NavDisabled(b, page, pageCount) ==> p == page
  {
    if NavDisabled(b, page, pageCount) then page
    else
      match b
      case FirstPage => 0
      case PreviousPage => page - 1
      case NextPage => Min(pageCount - 1, page + 1)
      case LastPage => pageCount - 1
  }

  /** From a page inside the range, every button keeps the page inside the range. */
  lemma ClickStaysInRange(b: NavButton, page: nat, pageCount: nat)
    requires page < pageCount
    ensures Click(b, page, pageCount) < pageCount
  {
  }

  /** A button is enabled exactly when clicking it changes the page. */
  lemma EnabledIffMoves(b: NavButton, page: nat, pageCount: nat)
    ensures !NavDisabled(b, page, pageCount) <==> Click(b, page, pageCount) != page
  {
  }

  /**
    What each enabled button does: first and last reach the ends, previous goes
    back one page, and next goes forward one page from inside the range.
   */
  lemma ClickMoves(b: NavButton, page: nat, pageCount: nat)
    requires !NavDisabled(b, page, pageCount)
    ensures b == FirstPage ==> Click(b, page, pageCount) == 0
    ensures b == PreviousPage ==> Click(b, page, pageCount) + 1 == page
    ensures b == NextPage && page < pageCount ==> Click(b, page, pageCount) == page + 1
    ensures b == LastPage ==> Click(b, page, pageCount) + 1 == pageCount
  {
  }

  /** A page index left past the end (the rows shrank) is brought back to the last page by "next". */
  lemma NextFromPastEnd(page: nat, pageCount: nat)
    requires 0 < pageCount <= page
    ensures Click(NextPage, page, pageCount) == pageCount - 1
  {
  }

  // ---------------------------------------------------------------------------
  // Derived views and rendering

  datatype Views = Views(filtered: seq<Record>, sorted: seq<Record>, paged: seq<Record>)

  /** The three derived views, recomputed from the input rows and the state. */
  function ViewsOf(cfg: Config, data: seq<Record>, s: TableState, localeCompare: (string, string) -> int): (v: Views)
    ensures |v.paged| <= |v.sorted| == |v.filtered| <= |data|
    ensures multiset(v.sorted) == multiset(v.filtered)
    ensures !SearchActive(s.query, cfg.searchColumn) ==> v.filtered == data
    ensures s.sort.Unsorted? ==> v.sorted == v.filtered
    ensures !cfg.pagination ==> v.paged == v.sorted
    ensures cfg.pagination ==> v.paged == Paginate(v.sorted, true, s.page, s.pageSize)
  {
    var filtered := FilterRows(data, s.query, cfg.searchColumn);
    var sorted := SortRows(filtered, s.sort, localeCompare);
    var paged := Paginate(sorted, cfg.pagination, s.page, s.pageSize);
    assert |sorted| == |filtered| <= |data|;
    assert multiset(sorted) == multiset(filtered);
    Views(filtered, sorted, paged)
  }

  /** Every displayed row is a row of the data that satisfies the search. */
  lemma ViewRowsComeFromData(cfg: Config, data: seq<Record>, s: TableState, localeCompare: (string, string) -> int)
    ensures forall x :: x in ViewsOf(cfg, data, s, localeCompare).paged ==>
      x in data && (SearchActive(s.query, cfg.searchColumn) ==> Matches(Field(x, cfg.searchColumn.value), s.query))
  {
    var v := ViewsOf(cfg, data, s, localeCompare);
    forall x | x in v.paged
      ensures x in v.sorted
    {
      if cfg.pagination {
        var i :| 0 <= i < |v.paged| && v.paged[i] == x;
        assert v.sorted[s.page * s.pageSize + i] == x;
      }
    }
    forall x | x in v.sorted
      ensures x in v.filtered
    {
      assert x in multiset(v.sorted);
    }
  }

  /**
    The sorted view holds exactly the rows of the data that satisfy the search
    (all of them when no search is active), each as often as in the data.
   */
  lemma SortedViewIsMatchingData(cfg: Config, data: seq<Record>, s: TableState, localeCompare: (string, string) -> int)
    ensures var v := ViewsOf(cfg, data, s, localeCompare);
      forall x :: multiset(v.sorted)[x]
               == if !SearchActive(s.query, cfg.searchColumn) || Matches(Field(x, cfg.searchColumn.value), s.query)
                  then multiset(data)[x] else 0
  {
    if SearchActive(s.query, cfg.searchColumn) {
      FilterRowsExact(data, s.query, cfg.searchColumn);
    }
  }

  /**
    The filtered view keeps the rows in the data's order, and with no sort the
    sorted view is the filtered view itself.
   */
  lemma FilteredViewKeepsOrder(cfg: Config, data: seq<Record>, s: TableState, localeCompare: (string, string) -> int)
    ensures var v := ViewsOf(cfg, data, s, localeCompare);
      && Seqs.IsSubsequence(v.filtered, data)
      && (s.sort.Unsorted? ==> Seqs.IsSubsequence(v.sorted, data))
  {
    if SearchActive(s.query, cfg.searchColumn) {
      FilterRowsExact(data, s.query, cfg.searchColumn);
    } else {
      Seqs.SubsequenceOfSelf(data);
    }
  }

  /**
    With a sort on a column that holds only strings or only numbers, the sorted
    view is ordered by that column in the chosen direction, between any two positions.
   */
  lemma SortedViewFollowsSort(cfg: Config, data: seq<Record>, s: TableState, localeCompare: (string, string) -> int)
    requires s.sort.SortBy?
    requires Homogeneous(data, s.sort.column)
    requires LocaleOrder(localeCompare)
    ensures Sorting.PairwiseOrdered(ViewsOf(cfg, data, s, localeCompare).sorted,
                                    RowOrder(s.sort.column, s.sort.direction, localeCompare))
  {
    var filtered := FilterRows(data, s.query, cfg.searchColumn);
    assert Homogeneous(filtered, s.sort.column);
    SortRowsOrdered(filtered, s.sort.column, s.sort.direction, localeCompare);
  }

  /** With no query, no sort and no pagination the table shows its input as given. */
  lemma InitialViewIsData(cfg: Config, data: seq<Record>, localeCompare: (string, string) -> int)
    requires !cfg.pagination
    ensures ViewsOf(cfg, data, Initial, localeCompare).paged == data
  {
  }

  /** The body of the table: a loader, the page's rows, or one "no data" row. */
  datatype Body = LoaderRow | DataRows(rows: seq<Record>) | EmptyRow

  function BodyFor(isLoading: bool, paged: seq<Record>): (b: Body)
    ensures b == LoaderRow <==> isLoading
    ensures b == EmptyRow <==> !isLoading && |paged| == 0
    ensures b.DataRows? ==> b.rows == paged && |paged| > 0
  {
    if isLoading then LoaderRow
    else if |paged| > 0 then DataRows(paged)
    else EmptyRow
  }

  function RenderedRows(b: Body): nat
  {
    match b
    case DataRows(rows) => |rows|
    case _ => 1
  }

  /** Loading shows exactly one row whatever the data; otherwise at least one row is shown. */
  lemma BodyRowCount(isLoading: bool, paged: seq<Record>)
    ensures isLoading ==> RenderedRows(BodyFor(isLoading, paged)) == 1
    ensures !isLoading ==> RenderedRows(BodyFor(isLoading, paged)) == if |paged| == 0 then 1 else |paged|
  {
  }

  /** The footer exists only with pagination on and a non-empty sorted view. */
  predicate FooterShown(cfg: Config, sortedCount: nat)
  {
    cfg.pagination && sortedCount > 0
  }

  /** What the footer reports: rows on this page, rows in all, page number, page total. */
  datatype Footer = Footer(shown: nat, total: nat, pageNumber: nat, pageTotal: nat)

  function FooterFor(cfg: Config, v: Views, s: TableState): (f: Option<Footer>)
    requires s.pageSize > 0
    ensures f.Some? <==> FooterShown(cfg, |v.sorted|)
  {
    if FooterShown(cfg, |v.sorted|) then
      Some(Footer(|v.paged|, |v.sorted|, s.page + 1, DisplayedPageCount(PageCount(|v.sorted|, s.pageSize))))
    else None
  }

  /** A footer shows a non-empty page exactly when the page index is inside the range. */
  lemma FooterConsistent(cfg: Config, data: seq<Record>, s: TableState, localeCompare: (string, string) -> int)
    requires ValidState(s)
    ensures var v := ViewsOf(cfg, data, s, localeCompare);
      FooterShown(cfg, |v.sorted|) ==>
      var f := FooterFor(cfg, v, s).value;
      && f.shown == |v.paged|
      && f.total == |v.sorted|
      && f.pageNumber == s.page + 1
      && f.pageTotal == DisplayedPageCount(PageCount(|v.sorted|, s.pageSize))
      && f.shown <= f.total
      && f.shown <= s.pageSize
      && f.pageTotal == PageCount(f.total, s.pageSize)
      && (f.shown > 0 <==> f.pageNumber <= f.pageTotal)
  {
    var v := ViewsOf(cfg, data, s, localeCompare);
    if FooterShown(cfg, |v.sorted|) {
      assert v.paged == PageSlice(v.sorted, s.page, s.pageSize);
      PageNonEmptyIff(v.sorted, s.page, s.pageSize);
      var c := PageCount(|v.sorted|, s.pageSize);
      assert c > 0;
    }
  }

  // ---------------------------------------------------------------------------
  // The state machine

  datatype Event =
    | TypeSearch(text: string)
    | ClickHeader(key: string)
    | ChoosePageSize(size: nat)
    | ClickNav(button: NavButton)

  /** The search box is rendered only when search is enabled and a column is designated. */
  predicate SearchInputShown(cfg: Config)
  {
    cfg.searchable && HasSearchColumn(cfg.searchColumn)
  }

  /**
    The state after one user action, once the page-reset effect has run. An action
    on a control that is not rendered, or on a disabled button, changes nothing.
   */
  function Step(cfg: Config, data: seq<Record>, s: TableState, e: Event,
                localeCompare: (string, string) -> int): (r: TableState)
    requires ValidState(s)
    ensures ValidState(r)
    ensures r.query != s.query || r.pageSize != s.pageSize ==> r.page == 0
    ensures r.page != s.page ==> e.ClickNav? || (r.page == 0 && (r.query != s.query || r.pageSize != s.pageSize))
    ensures r.sort != s.sort ==> r.page == s.page && e.ClickHeader? && IsSortableKey(cfg.columns, e.key)
    ensures r.query != s.query ==> e.TypeSearch?
    ensures r.pageSize != s.pageSize ==> e.ChoosePageSize?
    ensures e.TypeSearch? ==> r.query == if SearchInputShown(cfg) then e.text else s.query
    ensures e.ClickHeader? ==> r.sort == if IsSortableKey(cfg.columns, e.key) then Toggle(s.sort, e.key) else s.sort
    ensures var n := |ViewsOf(cfg, data, s, localeCompare).sorted|;
      && (e.ChoosePageSize? ==>
            r.pageSize == if FooterShown(cfg, n) && e.size in PageSizeOptions then e.size else s.pageSize)
      && (e.ClickNav? ==>
            r.page == if FooterShown(cfg, n) then Click(e.button, s.page, PageCount(n, s.pageSize)) else s.page)
  {
    var sorted := ViewsOf(cfg, data, s, localeCompare).sorted;
    match e
    case TypeSearch(text) =>
      if SearchInputShown(cfg) && text != s.query then s.(query := text, page := 0) else s
    case ClickHeader(key) =>
      if IsSortableKey(cfg.columns, key) then s.(sort := Toggle(s.sort, key)) else s
    case ChoosePageSize(size) =>
      if FooterShown(cfg, |sorted|) && size in PageSizeOptions && size != s.pageSize
      then s.(pageSize := size, page := 0)
      else s
    case ClickNav(b) =>
      if FooterShown(cfg, |sorted|) then s.(page := Click(b, s.page, PageCount(|sorted|, s.pageSize))) else s
  }

  /** Text typed into the visible search box always makes the search active, so it filters. */
  lemma SearchBoxFilters(cfg: Config, text: string)
    requires SearchInputShown(cfg)
    ensures SearchActive(text, cfg.searchColumn) <==> text != ""
  {
  }

  /** The sort, if any, is on a column whose header is clickable. */
  predicate SortOnSortable(columns: seq<Column>, s: TableState)
  {
    s.sort.Unsorted? || IsSortableKey(columns, s.sort.column)
  }

  /** One user action against the rows the caller passes at that moment. */
  datatype Input = Input(data: seq<Record>, event: Event)

  function Run(cfg: Config, s: TableState, inputs: seq<Input>, localeCompare: (string, string) -> int): (r: TableState)
    requires ValidState(s)
    ensures ValidState(r)
    decreases |inputs|
  {
    if |inputs| == 0 then s
    else Run(cfg, Step(cfg, inputs[0].data, s, inputs[0].event, localeCompare), inputs[1..], localeCompare)
  }

  /** Whatever the user does, and whatever rows arrive, the sort stays on a sortable column. */
  lemma {:induction false} RunKeepsSortOnSortable(cfg: Config, s: TableState, inputs: seq<Input>,
                                                  localeCompare: (string, string) -> int)
    requires ValidState(s)
    requires SortOnSortable(cfg.columns, s)
    ensures SortOnSortable(cfg.columns, Run(cfg, s, inputs, localeCompare))
    decreases |inputs|
  {
    if |inputs| > 0 {
      var next := Step(cfg, inputs[0].data, s, inputs[0].event, localeCompare);
      RunKeepsSortOnSortable(cfg, next, inputs[1..], localeCompare);
    }
  }

  /** The initial state is valid and unsorted. */
  lemma InitialIsValid(columns: seq<Column>)
    ensures ValidState(Initial)
    ensures SortOnSortable(columns, Initial)
  {
  }
}

=== FILE: entities.dfy ===
/**
  The three record types the pages manage, and how each appears to the data
  table: as a mapping from field name to value.
 */
module Entities {
  import opened Records

  datatype Client = Client(
    id: string,
    name: string,
    email: string,
    phone: string,
    company: string,
    status: string,
    createdAt: string)

  /** One product line of a sale. Prices are whole numbers in this model. */
  datatype LineItem = LineItem(id: string, name: string, price: int, quantity: int)

  datatype Sale = Sale(
    id: string,
    clientId: string,
    amount: int,
    status: string,
    date: string,
    products: seq<LineItem>)

  datatype Task = Task(
    id: string,
    title: string,
    description: string,
    status: string,
    assignedTo: string,
    dueDate: string,
    priority: string)

  /** A client as a table row: its seven fields, each a string under its own name. */
  function ClientRecord(c: Client): (r: Record)
    ensures forall k :: k in r ==> r[k].VStr?
    ensures r.Keys == {"id", "name", "email", "phone", "company", "status", "createdAt"}
    ensures && Field(r, "id") == VStr(c.id) && Field(r, "name") == VStr(c.name)
            && Field(r, "email") == VStr(c.email) && Field(r, "phone") == VStr(c.phone)
            && Field(r, "company") == VStr(c.company) && Field(r, "status") == VStr(c.status)
            && Field(r, "createdAt") == VStr(c.createdAt)
  {
    map[
      "id" := VStr(c.id), "name" := VStr(c.name), "email" := VStr(c.email),
      "phone" := VStr(c.phone), "company" := VStr(c.company),
      "status" := VStr(c.status), "createdAt" := VStr(c.createdAt)]
  }

  /**
    A sale as a table row: the amount is a number, the product list is neither
    string nor number, and the other four fields are strings under their own names.
   */
  function SaleRecord(s: Sale): (r: Record)
    ensures r.Keys == {"id", "clientId", "amount", "status", "date", "products"}
    ensures Field(r, "amount") == VNum(s.amount)
    ensures Field(r, "products") == VOther
    ensures && Field(r, "id") == VStr(s.id) && Field(r, "clientId") == VStr(s.clientId)
            && Field(r, "status") == VStr(s.status) && Field(r, "date") == VStr(s.date)
  {
    map[
      "id" := VStr(s.id), "clientId" := VStr(s.clientId), "amount" := VNum(s.amount),
      "status" := VStr(s.status), "date" := VStr(s.date), "products" := VOther]
  }

  /** A task as a table row: its seven fields, each a string under its own name. */
  function TaskRecord(t: Task): (r: Record)
    ensures forall k :: k in r ==> r[k].VStr?
    ensures r.Keys == {"id", "title", "description", "status", "assignedTo", "dueDate", "priority"}
    ensures && Field(r, "id") == VStr(t.id) && Field(r, "title") == VStr(t.title)
            && Field(r, "description") == VStr(t.description) && Field(r, "status") == VStr(t.status)
            && Field(r, "assignedTo") == VStr(t.assignedTo) && Field(r, "dueDate") == VStr(t.dueDate)
            && Field(r, "priority") == VStr(t.priority)
  {
    map[
      "id" := VStr(t.id), "title" := VStr(t.title), "description" := VStr(t.description),
      "status" := VStr(t.status), "assignedTo" := VStr(t.assignedTo),
      "dueDate" := VStr(t.dueDate), "priority" := VStr(t.priority)]
  }

  /** Two clients show as the same row exactly when they are the same client. */
  lemma ClientRecordInjective(a: Client, b: Client)
    ensures ClientRecord(a) == ClientRecord(b) <==> a == b
  {
  }

  /** Two tasks show as the same row exactly when they are the same task. */
  lemma TaskRecordInjective(a: Task, b: Task)
    ensures TaskRecord(a) == TaskRecord(b) <==> a == b
  {
  }

  /** Two sales show as the same row exactly when they agree on everything but their product lines. */
  lemma SaleRecordIgnoresProducts(a: Sale, b: Sale)
    ensures SaleRecord(a) == SaleRecord(b) <==> a.(products := b.products) == b
  {
  }

  function ClientRows(cs: seq<Client>): (rows: seq<Record>)
    ensures |rows| == |cs|
    ensures forall i :: 0 <= i < |cs| ==> rows[i] == ClientRecord(cs[i])
  {
    seq(|cs|, i requires 0 <= i < |cs| => ClientRecord(cs[i]))
  }

  function SaleRows(ss: seq<Sale>): (rows: seq<Record>)
    ensures |rows| == |ss|
    ensures forall i :: 0 <= i < |ss| ==> rows[i] == SaleRecord(ss[i])
  {
    seq(|ss|, i requires 0 <= i < |ss| => SaleRecord(ss[i]))
  }

  function TaskRows(ts: seq<Task>): (rows: seq<Record>)
    ensures |rows| == |ts|
    ensures forall i :: 0 <= i < |ts| ==> rows[i] == TaskRecord(ts[i])
  {
    seq(|ts|, i requires 0 <= i < |ts| => TaskRecord(ts[i]))
  }
}

=== FILE: listops.dfy ===
/**
  The list updates the three pages share: the status pre-filter, and the
  removal of a record after a delete request the user confirmed and the
  server answered with status 200.
 */
module ListOps {
  import Seqs

  /** Only the exact status 200 counts as a successful delete. */
  predicate DeleteSucceeded(status: int)
  {
    status == 200
  }

  function Without<T(!new)>(idOf: T -> string, id: string): T -> bool
  {
    (x: T) => idOf(x) != id
  }

  /**
    The list after the user asks to delete the record `id`: without confirmation
    no request is sent, and a reply other than 200 leaves the list as it was.
   */
  function AfterDelete<T(!new)>(items: seq<T>, idOf: T -> string, id: string, confirmed: bool, status: int): (r: seq<T>)
    ensures !confirmed || !DeleteSucceeded(status) ==> r == items
    ensures confirmed && DeleteSucceeded(status) ==> forall x :: x in r <==> x in items && idOf(x) != id
    ensures |r| <= |items|
  {
    if confirmed && DeleteSucceeded(status) then Seqs.Filter(items, Without(idOf, id)) else items
  }

  /** A successful delete keeps the other records in order, each as often as before. */
  lemma AfterDeleteExact<T(!new)>(items: seq<T>, idOf: T -> string, id: string)
    ensures Seqs.IsSubsequence(AfterDelete(items, idOf, id, true, 200), items)
    ensures forall x :: multiset(AfterDelete(items, idOf, id, true, 200))[x]
                     == (if idOf(x) == id then 0 else multiset(items)[x])
  {
    Seqs.FilterIsSubsequence(items, Without(idOf, id));
    Seqs.FilterCounts(items, Without(idOf, id));
  }

  /** Deleting a record that is already gone changes nothing. */
  lemma AfterDeleteIdempotent<T(!new)>(items: seq<T>, idOf: T -> string, id: string, status: int)
    ensures var once := AfterDelete(items, idOf, id, true, 200);
      AfterDelete(once, idOf, id, true, status) == once
  {
    var once := AfterDelete(items, idOf, id, true, 200);
    Seqs.FilterKeepsAll(once, Without(idOf, id));
  }

  function HasStatus<T(!new)>(statusOf: T -> string, wanted: string): T -> bool
  {
    (x: T) => statusOf(x) == wanted
  }

  /** The status pre-filter: the empty choice means "all statuses". */
  function WithStatus<T(!new)>(items: seq<T>, statusOf: T -> string, wanted: string): (r: seq<T>)
    ensures wanted == "" ==> r == items
    ensures wanted != "" ==> forall x :: x in r <==> x in items && statusOf(x) == wanted
    ensures |r| <= |items|
  {
    if wanted != "" then Seqs.Filter(items, HasStatus(statusOf, wanted)) else items
  }

  /** The pre-filtered list keeps the matching records in order, each as often as before. */
  lemma WithStatusExact<T(!new)>(items: seq<T>, statusOf: T -> string, wanted: string)
    requires wanted != ""
    ensures Seqs.IsSubsequence(WithStatus(items, statusOf, wanted), items)
    ensures forall x :: multiset(WithStatus(items, statusOf, wanted))[x]
                     == (if statusOf(x) == wanted then multiset(items)[x] else 0)
  {
    Seqs.FilterIsSubsequence(items, HasStatus(statusOf, wanted));
    Seqs.FilterCounts(items, HasStatus(statusOf, wanted));
  }
}

=== FILE: records.dfy ===
/**
  The records a data table displays: a mapping from field name to value, where
  a value is a string, a number, or anything else (`undefined`, arrays, objects).
 */
module Records {

  datatype Value = VStr(str: string) | VNum(num: int) | VOther

  type Record = map<string, Value>

  /** `record[key]`: reading an absent field yields `undefined`. */
  function Field(r: Record, key: string): (v: Value)
    ensures key !in r ==> v == VOther
  {
    if key in r then r[key] else VOther
  }
}

=== FILE: saleform.dfy ===
/**
  The sale form: a list of product lines built up through a draft line, a total
  amount kept equal to the sum of price times quantity over the lines, and the
  guards that stand between the form and the create or update request.
 */
module SaleForm {
  import opened Wrappers
  import opened Entities
  import opened Text
  import Seqs

  /** The fields of a sale other than its id. */
  datatype SaleFields = SaleFields(
    clientId: string,
    amount: int,
    status: string,
    date: string,
    products: seq<LineItem>)

  /** The form: the sale being edited, and the product line being typed in. */
  datatype FormState = FormState(fields: SaleFields, draft: LineItem)

  /** The draft after a reset: no id, no name, price 0, quantity 1. */
  const EmptyDraft: LineItem := LineItem("", "", 0, 1)

  /** The form of a new sale; `today` stands for the current date. */
  function NewForm(today: string): (f: FormState)
    ensures f.fields.products == [] && f.fields.amount == 0 && f.fields.clientId == ""
    ensures AmountConsistent(f.fields)
  {
    FormState(SaleFields("", 0, "pending", today, []), EmptyDraft)
  }

  /** The form is editing an existing sale when the route id is present and not "new". */
  predicate IsEditMode(routeId: Option<string>)
  {
    routeId.Some? && routeId.value != "new"
  }

  /** Only an absent route id and the literal "new" open the form for a new sale. */
  lemma EditModeCases(id: string)
    ensures !IsEditMode(None)
    ensures IsEditMode(Some(id)) <==> id != "new"
  {
  }

  function Subtotal(p: LineItem): int
  {
    p.price * p.quantity
  }

  /** The sum of price times quantity over the lines. */
  function Total(ps: seq<LineItem>): (t: int)
    ensures |ps| == 0 ==> t == 0
    ensures (forall i :: 0 <= i < |ps| ==> DraftAcceptable(ps[i])) ==> (t > 0 <==> |ps| > 0)
  {
    if |ps| == 0 then 0 else Subtotal(ps[0]) + Total(ps[1..])
  }

  predicate AmountConsistent(f: SaleFields)
  {
    f.amount == Total(f.products)
  }

  /** Appending a line adds its subtotal. */
  lemma {:induction false} TotalAppend(ps: seq<LineItem>, p: LineItem)
    ensures Total(ps + [p]) == Total(ps) + Subtotal(p)
  {
    if |ps| > 0 {
      assert (ps + [p])[1..] == ps[1..] + [p];
      TotalAppend(ps[1..], p);
    }
  }

  /** Splitting the lines by any criterion splits the total. */
  lemma {:induction false} TotalSplit(ps: seq<LineItem>, keep: LineItem -> bool)
    ensures Total(ps) == Total(Seqs.Filter(ps, keep)) + Total(Seqs.Filter(ps, (p: LineItem) => !keep(p)))
  {
    if |ps| > 0 {
      TotalSplit(ps[1..], keep);
      Seqs.FilterUnfold(ps, keep);
      Seqs.FilterUnfold(ps, (p: LineItem) => !keep(p));
    }
  }

  /** The draft is accepted only with a name, a positive price and a positive quantity. */
  predicate DraftAcceptable(p: LineItem)
  {
    p.name != "" && p.price > 0 && p.quantity > 0
  }

  /** The id given to a line added without one; `now` stands for the clock reading. */
  function TempId(now: nat): (id: string)
    ensures id != ""
  {
    "temp-" + NatToDecimal(now)
  }

  /**
    `addProduct`: a rejected draft changes nothing; an accepted one becomes the
    last line (with a temporary id when it has none), the amount is recomputed
    and the draft is reset.
   */
  function AddProduct(f: FormState, now: nat): (r: FormState)
    ensures !DraftAcceptable(f.draft) ==> r == f
    ensures DraftAcceptable(f.draft) ==>
      var ps := f.fields.products;
      var added := f.draft.(id := if f.draft.id != "" then f.draft.id else TempId(now));
      && r.fields.products == ps + [added]
      && AmountConsistent(r.fields)
      && r.fields.(amount := f.fields.amount, products := ps) == f.fields
      && r.draft == EmptyDraft
  {
    if !DraftAcceptable(f.draft) then f
    else
      var id := if f.draft.id != "" then f.draft.id else TempId(now);
      var products := f.fields.products + [f.draft.(id := id)];
      FormState(f.fields.(products := products, amount := Total(products)), EmptyDraft)
  }

  function OtherThan(productId: string): LineItem -> bool
  {
    (p: LineItem) => p.id != productId
  }

  /** `removeProduct`: every line with the id goes, the rest stay in order, and the amount is recomputed. */
  function RemoveProduct(f: FormState, productId: string): (r: FormState)
    ensures forall p :: p in r.fields.products <==> p in f.fields.products && p.id != productId
    ensures Seqs.IsSubsequence(r.fields.products, f.fields.products)
    ensures forall p :: multiset(r.fields.products)[p] == if p.id == productId then 0 else multiset(f.fields.products)[p]
    ensures AmountConsistent(r.fields)
    ensures r.fields.(amount := f.fields.amount, products := f.fields.products) == f.fields
    ensures r.draft == f.draft
  {
    var products := Seqs.Filter(f.fields.products, OtherThan(productId));
    Seqs.FilterIsSubsequence(f.fields.products, OtherThan(productId));
    Seqs.FilterCounts(f.fields.products, OtherThan(productId));
    f.(fields := f.fields.(products := products, amount := Total(products)))
  }

  /** An accepted line raises a consistent amount by exactly its (positive) subtotal. */
  lemma AddRaisesAmount(f: FormState, now: nat)
    requires AmountConsistent(f.fields)
    requires DraftAcceptable(f.draft)
    ensures AddProduct(f, now).fields.amount == f.fields.amount + f.draft.price * f.draft.quantity
    ensures AddProduct(f, now).fields.amount > f.fields.amount
  {
    var added := f.draft.(id := if f.draft.id != "" then f.draft.id else TempId(now));
    TotalAppend(f.fields.products, added);
  }

  /** Removing lines lowers a consistent amount by exactly the subtotals of the removed lines. */
  lemma RemoveLowersAmount(f: FormState, productId: string)
    requires AmountConsistent(f.fields)
    ensures RemoveProduct(f, productId).fields.amount
         == f.fields.amount - Total(Seqs.Filter(f.fields.products, (p: LineItem) => p.id == productId))
  {
    var keep := OtherThan(productId);
    TotalSplit(f.fields.products, keep);
    Seqs.FilterSameCriterion(f.fields.products, (p: LineItem) => !keep(p), (p: LineItem) => p.id == productId);
  }

  /** What pressing "save" leads to. */
  datatype SubmitOutcome =
    | MissingClient
    | NoProducts
    | CreateSale(fields: SaleFields)
    | UpdateSale(id: string, fields: SaleFields)

  /**
    `handleSubmit`: a missing client is reported first, then an empty product
    list; otherwise the fields are sent as they are, as an update when editing
    an existing sale under a non-empty id, as a create otherwise.
   */
  function Submit(f: SaleFields, routeId: Option<string>): (o: SubmitOutcome)
    ensures f.clientId == "" <==> o == MissingClient
    ensures o == NoProducts <==> f.clientId != "" && |f.products| == 0
    ensures (o.CreateSale? || o.UpdateSale?) ==> o.fields == f && f.clientId != "" && |f.products| > 0
    ensures o.UpdateSale? <==>
      f.clientId != "" && |f.products| > 0 && IsEditMode(routeId) && routeId.value != ""
    ensures o.UpdateSale? ==> o.id == routeId.value
  {
    if f.clientId == "" then MissingClient
    else if |f.products| == 0 then NoProducts
    else if IsEditMode(routeId) && routeId.value != "" then UpdateSale(routeId.value, f)
    else CreateSale(f)
  }

  /** After an accepted add, a form with a client passes both guards. */
  lemma SubmitAfterAdd(f: FormState, now: nat, routeId: Option<string>)
    requires DraftAcceptable(f.draft)
    requires f.fields.clientId != ""
    ensures var o := Submit(AddProduct(f, now).fields, routeId);
      o.CreateSale? || o.UpdateSale?
  {
  }

  /** The user's edits of the form: field changes, draft changes, adds and removes. */
  datatype Edit =
    | ChangeClient(clientId: string)
    | ChangeStatus(status: string)
    | ChangeDate(date: string)
    | ChangeDraft(draft: LineItem)
    | Add(now: nat)
    | Remove(productId: string)

  /**
    `handleChange`, `handleProductChange`, `addProduct` and `removeProduct`: a
    field or draft edit replaces exactly that one value and leaves the rest of
    the form alone.
   */
  function Apply(f: FormState, e: Edit): (r: FormState)
    ensures e.Add? || e.Remove? || r.fields.products == f.fields.products
    ensures e.ChangeClient? ==> r == f.(fields := f.fields.(clientId := e.clientId))
    ensures e.ChangeStatus? ==> r == f.(fields := f.fields.(status := e.status))
    ensures e.ChangeDate? ==> r == f.(fields := f.fields.(date := e.date))
    ensures e.ChangeDraft? ==> r == f.(draft := e.draft)
    ensures e.Add? ==> r == AddProduct(f, e.now)
    ensures e.Remove? ==> r == RemoveProduct(f, e.productId)
  {
    match e
    case ChangeClient(c) => f.(fields := f.fields.(clientId := c))
    case ChangeStatus(st) => f.(fields := f.fields.(status := st))
    case ChangeDate(d) => f.(fields := f.fields.(date := d))
    case ChangeDraft(d) => f.(draft := d)
    case Add(now) => AddProduct(f, now)
    case Remove(id) => RemoveProduct(f, id)
  }

  function ApplyAll(f: FormState, edits: seq<Edit>): FormState
    decreases |edits|
  {
    if |edits| == 0 then f else ApplyAll(Apply(f, edits[0]), edits[1..])
  }

  /** From any form whose amount is the sum of its lines, every sequence of edits keeps it so. */
  lemma {:induction false} EditsKeepAmountConsistent(f: FormState, edits: seq<Edit>)
    requires AmountConsistent(f.fields)
    ensures AmountConsistent(ApplyAll(f, edits).fields)
    decreases |edits|
  {
    if |edits| > 0 {
      EditsKeepAmountConsistent(Apply(f, edits[0]), edits[1..]);
    }
  }

  /** The invariant for a form that starts empty. */
  lemma NewFormStaysConsistent(today: string, edits: seq<Edit>)
    ensures AmountConsistent(ApplyAll(NewForm(today), edits).fields)
  {
    EditsKeepAmountConsistent(NewForm(today), edits);
  }
}

=== FILE: salespage.dfy ===
/**
  The sales list: a status pre-filter in front of the data table, deletion
  after the server's reply, and the table's column configuration.
 */
module SalesPage {
  import opened Wrappers
  import opened Records
  import opened Text
  import opened Entities
  import opened DataTable
  import Seqs
  import ListOps
  import Sorting

  /** `filteredSales`: the empty choice lists every sale. */
  function FilterSales(sales: seq<Sale>, statusFilter: string): (r: seq<Sale>)
    ensures statusFilter == "" ==> r == sales
    ensures statusFilter != "" ==> forall s :: s in r <==> s in sales && s.status == statusFilter
  {
    ListOps.WithStatus(sales, (s: Sale) => s.status, statusFilter)
  }

  /** A chosen status lists its sales in their original order, each as often as before. */
  lemma FilterSalesExact(sales: seq<Sale>, statusFilter: string)
    requires statusFilter != ""
    ensures Seqs.IsSubsequence(FilterSales(sales, statusFilter), sales)
    ensures forall s :: multiset(FilterSales(sales, statusFilter))[s]
                     == (if s.status == statusFilter then multiset(sales)[s] else 0)
  {
    ListOps.WithStatusExact(sales, (s: Sale) => s.status, statusFilter);
  }

  /** `handleDeleteSale`, given the confirmation answer and the reply status. */
  function DeleteSale(sales: seq<Sale>, id: string, confirmed: bool, status: int): (r: seq<Sale>)
    ensures !confirmed || status != 200 ==> r == sales
    ensures confirmed && status == 200 ==> forall s :: s in r <==> s in sales && s.id != id
  {
    ListOps.AfterDelete(sales, (s: Sale) => s.id, id, confirmed, status)
  }

  /** The table's columns; "products" and "actions" have no sort button. */
  const Columns: seq<Column> := [
    Column("id", "ID", true),
    Column("clientId", "ID клиента", true),
    Column("amount", "Сумма", true),
    Column("status", "Статус", true),
    Column("date", "Дата", true),
    Column("products", "Товары", false),
    Column("actions", "Действия", false)]

  /** The table searches ids; search and pagination keep their defaults. */
  const TableConfig: Config := DefaultConfig(Columns, Some("id"))

  lemma SortableKeys(key: string)
    ensures IsSortableKey(Columns, key) <==> key in {"id", "clientId", "amount", "status", "date"}
  {
    if key in {"id", "clientId", "amount", "status", "date"} {
      var i := if key == "id" then 0 else if key == "clientId" then 1 else if key == "amount" then 2
        else if key == "status" then 3 else 4;
      assert Columns[i].key == key && Columns[i].sortable;
    }
  }

  /** Whatever the user does, the sales table is never sorted by products or by its actions column. */
  lemma NeverSortedByProductsOrActions(inputs: seq<Input>, localeCompare: (string, string) -> int)
    ensures var s := Run(TableConfig, Initial, inputs, localeCompare);
      s.sort.Unsorted? || (s.sort.column != "products" && s.sort.column != "actions")
  {
    RunKeepsSortOnSortable(TableConfig, Initial, inputs, localeCompare);
    var s := Run(TableConfig, Initial, inputs, localeCompare);
    if s.sort.SortBy? {
      SortableKeys(s.sort.column);
    }
  }

  /** The id is a string, so the id search is a case-insensitive substring test. */
  lemma IdSearch(s: Sale, query: string)
    ensures Matches(Field(SaleRecord(s), "id"), query) <==> exists k :: OccursAt(Lower(s.id), Lower(query), k)
  {
    MatchesMeaning(Field(SaleRecord(s), "id"), query);
  }

  /** The amount column holds numbers and the others strings, so every sortable column sorts fully ordered. */
  lemma SortedSalesOrdered(sales: seq<Sale>, key: string, d: Direction, localeCompare: (string, string) -> int)
    requires IsSortableKey(Columns, key)
    requires LocaleOrder(localeCompare)
    ensures Sorting.PairwiseOrdered(SortRows(SaleRows(sales), SortBy(key, d), localeCompare), RowOrder(key, d, localeCompare))
  {
    SortableKeys(key);
    var rows := SaleRows(sales);
    if key == "amount" {
      forall r | r in rows
        ensures Field(r, key).VNum?
      {
        var i :| 0 <= i < |rows| && rows[i] == r;
        assert r == SaleRecord(sales[i]);
      }
    } else {
      forall r | r in rows
        ensures Field(r, key).VStr?
      {
        var i :| 0 <= i < |rows| && rows[i] == r;
        assert r == SaleRecord(sales[i]);
      }
    }
    SortRowsOrdered(rows, key, d, localeCompare);
  }
}

=== FILE: scenarios.dfy ===
/** Worked examples of the table's behaviour on small inputs. */
module Scenarios {
  import opened Wrappers
  import opened Records
  import opened DataTable
  import Text
  import Seqs
  import Sorting

  /** Searching names for "al" keeps Alice and drops Bob. */
  lemma SearchScenario()
    ensures var bob: Record := map["name" := VStr("Bob")];
      var alice: Record := map["name" := VStr("Alice")];
      FilterRows([bob, alice], "al", Some("name")) == [alice]
  {
    var bob: Record := map["name" := VStr("Bob")];
    var alice: Record := map["name" := VStr("Alice")];
    assert Text.Lower("al") == "al";
    assert Text.Lower("Alice") == "alice";
    assert Text.Lower("Bob") == "bob";
    assert Text.StartsWith("alice", "al");
    assert !Text.Contains("bob", "al") by {
      assert "bob"[1..] == "ob" && "ob"[1..] == "b" && "b"[1..] == "";
      assert !Text.StartsWith("bob", "al") by { assert "bob"[..2] == "bo"; }
      assert !Text.StartsWith("ob", "al") by { assert "ob"[..2] == "ob"; }
      assert !Text.StartsWith("b", "al");
      assert !Text.StartsWith("", "al");
      assert !Text.Contains("", "al");
      assert !Text.Contains("b", "al");
      assert !Text.Contains("ob", "al");
    }
    Seqs.FilterUnfold([bob, alice], KeepRow("name", "al"));
    assert [bob, alice][1..] == [alice];
    Seqs.FilterUnfold([alice], KeepRow("name", "al"));
    assert [alice][1..] == [];
  }

  /** 25 rows in pages of 10: three pages, and "last" from the first page shows the final 5 rows. */
  lemma PagingScenario(rows: seq<Record>)
    requires |rows| == 25
    ensures PageCount(|rows|, 10) == 3
    ensures |PageSlice(rows, 0, 10)| == 10
    ensures Click(LastPage, 0, 3) == 2
    ensures PageSlice(rows, 2, 10) == rows[20..25]
  {
    var last := PageSlice(rows, 2, 10);
    assert |last| == 5;
  }

  function AmountRow(n: int): Record
  {
    map["amount" := VNum(n)]
  }

  /** The comparator on the amount column, ascending, for the three rows of the example. */
  lemma AmountOrderValues(localeCompare: (string, string) -> int)
    ensures var up := RowOrder("amount", Asc, localeCompare);
      && up(AmountRow(100), AmountRow(200)) < 0 && up(AmountRow(200), AmountRow(100)) > 0
      && up(AmountRow(200), AmountRow(300)) < 0 && up(AmountRow(300), AmountRow(200)) > 0
      && up(AmountRow(100), AmountRow(300)) < 0 && up(AmountRow(300), AmountRow(100)) > 0
  {
    assert Field(AmountRow(100), "amount") == VNum(100);
    assert Field(AmountRow(200), "amount") == VNum(200);
    assert Field(AmountRow(300), "amount") == VNum(300);
  }

  /** Sorting three elements is inserting the first into the sorted other two. */
  lemma SortThree<T>(x: T, y: T, z: T, cmp: (T, T) -> int)
    ensures Sorting.InsertionSort([x, y, z], cmp) == Sorting.Insert(x, Sorting.Insert(y, [z], cmp), cmp)
  {
    assert [z][1..] == [];
    assert Sorting.InsertionSort([z], cmp) == Sorting.Insert(z, [], cmp) == [z];
    assert [y, z][1..] == [z];
    assert Sorting.InsertionSort([y, z], cmp) == Sorting.Insert(y, [z], cmp);
    assert [x, y, z][1..] == [y, z];
  }

  /** Inserting into one element, spelled out. */
  lemma InsertIntoOne<T>(y: T, z: T, cmp: (T, T) -> int)
    ensures Sorting.Insert(y, [z], cmp) == if cmp(y, z) <= 0 then [y, z] else [z, y]
  {
    assert [z][1..] == [];
  }

  /** Inserting into two elements, spelled out. */
  lemma InsertIntoTwo<T>(x: T, y: T, z: T, cmp: (T, T) -> int)
    ensures Sorting.Insert(x, [y, z], cmp)
         == if cmp(x, y) <= 0 then [x, y, z] else if cmp(x, z) <= 0 then [y, x, z] else [y, z, x]
  {
    assert [y, z][1..] == [z] && [z][1..] == [];
  }

  /** The first click on the amount header sorts 300, 100, 200 to 100, 200, 300. */
  lemma AscendingScenario(localeCompare: (string, string) -> int)
    ensures SortRows([AmountRow(300), AmountRow(100), AmountRow(200)], Toggle(Unsorted, "amount"), localeCompare)
         == [AmountRow(100), AmountRow(200), AmountRow(300)]
  {
    var a, b, c := AmountRow(300), AmountRow(100), AmountRow(200);
    var up := RowOrder("amount", Asc, localeCompare);
    AmountOrderValues(localeCompare);
    SortThree(a, b, c, up);
    InsertIntoOne(b, c, up);
    InsertIntoTwo(a, b, c, up);
  }

  /** The second click sorts them to 300, 200, 100. */
  lemma DescendingScenario(localeCompare: (string, string) -> int)
    ensures SortRows([AmountRow(300), AmountRow(100), AmountRow(200)],
                     Toggle(Toggle(Unsorted, "amount"), "amount"), localeCompare)
         == [AmountRow(300), AmountRow(200), AmountRow(100)]
  {
    var a, b, c := AmountRow(300), AmountRow(100), AmountRow(200);
    var down := RowOrder("amount", Desc, localeCompare);
    AmountOrderValues(localeCompare);
    SortThree(a, b, c, down);
    InsertIntoOne(b, c, down);
    InsertIntoTwo(a, c, b, down);
  }

  /** The third click restores the original order. */
  lemma ThirdClickScenario(localeCompare: (string, string) -> int)
    ensures var rows := [AmountRow(300), AmountRow(100), AmountRow(200)];
      SortRows(rows, Toggle(Toggle(Toggle(Unsorted, "amount"), "amount"), "amount"), localeCompare) == rows
  {
  }
}

=== FILE: seqs.dfy ===
/**
  Order-preserving filtering of sequences, the `Array.prototype.filter` of the
  modelled program, together with an independent definition of "subsequence".
 */
module Seqs {

  /** `r` can be obtained from `s` by deleting elements, keeping the order of the rest. */
  ghost predicate IsSubsequence<T>(r: seq<T>, s: seq<T>)
    decreases |s|
  {
    if |r| == 0 then true
    else if |s| == 0 then false
    else (r[0] == s[0] && IsSubsequence(r[1..], s[1..])) || IsSubsequence(r, s[1..])
  }

  /** The elements of `s` satisfying `keep`, in their original order. */
  function Filter<T(!new)>(s: seq<T>, keep: T -> bool): (r: seq<T>)
    ensures |r| <= |s|
    ensures forall x :: x in r <==> x in s && keep(x)
    decreases |s|
  {
    if |s| == 0 then []
    else
      var rest := Filter(s[1..], keep);
      assert s == [s[0]] + s[1..];
      if keep(s[0]) then [s[0]] + rest else rest
  }

  /** Every kept element occurs as often as in `s`; every dropped one not at all. */
  lemma {:induction false} FilterCounts<T(!new)>(s: seq<T>, keep: T -> bool)
    ensures forall x :: multiset(Filter(s, keep))[x] == if keep(x) then multiset(s)[x] else 0
    decreases |s|
  {
    if |s| > 0 {
      FilterCounts(s[1..], keep);
      assert s == [s[0]] + s[1..];
    }
  }

  /** The filtered sequence keeps the relative order of the elements it keeps. */
  lemma {:induction false} FilterIsSubsequence<T(!new)>(s: seq<T>, keep: T -> bool)
    ensures IsSubsequence(Filter(s, keep), s)
    decreases |s|
  {
    if |s| > 0 {
      FilterIsSubsequence(s[1..], keep);
    }
  }

  /** A filter that keeps every element is the identity. */
  lemma {:induction false} FilterKeepsAll<T(!new)>(s: seq<T>, keep: T -> bool)
    requires forall x :: x in s ==> keep(x)
    ensures Filter(s, keep) == s
    decreases |s|
  {
    if |s| > 0 {
      FilterKeepsAll(s[1..], keep);
    }
  }

  /** Every sequence is a subsequence of itself. */
  lemma {:induction false} SubsequenceOfSelf<T>(s: seq<T>)
    ensures IsSubsequence(s, s)
    decreases |s|
  {
    if |s| > 0 {
      SubsequenceOfSelf(s[1..]);
    }
  }

  /** One step of the filter, for use in proofs. */
  lemma FilterUnfold<T(!new)>(s: seq<T>, keep: T -> bool)
    requires |s| > 0
    ensures Filter(s, keep) == (if keep(s[0]) then [s[0]] else []) + Filter(s[1..], keep)
  {
  }

  /** Filtering distributes over concatenation. */
  lemma {:induction false} FilterAppend<T(!new)>(a: seq<T>, b: seq<T>, keep: T -> bool)
    ensures Filter(a + b, keep) == Filter(a, keep) + Filter(b, keep)
    decreases |a|
  {
    if |a| == 0 {
      assert a + b == b;
    } else {
      var head: seq<T> := if keep(a[0]) then [a[0]] else [];
      AppendTail(a, b);
      FilterUnfold(a + b, keep);
      FilterUnfold(a, keep);
      FilterAppend(a[1..], b, keep);
      AppendAssoc(head, Filter(a[1..], keep), Filter(b, keep));
    }
  }

  lemma AppendTail<T>(a: seq<T>, b: seq<T>)
    requires |a| > 0
    ensures (a + b)[0] == a[0] && (a + b)[1..] == a[1..] + b
  {
  }

  lemma AppendAssoc<T>(x: seq<T>, y: seq<T>, z: seq<T>)
    ensures x + (y + z) == (x + y) + z
  {
  }

  /** Two criteria that agree everywhere filter alike. */
  lemma {:induction false} FilterSameCriterion<T(!new)>(s: seq<T>, a: T -> bool, b: T -> bool)
    requires forall x :: a(x) == b(x)
    ensures Filter(s, a) == Filter(s, b)
    decreases |s|
  {
    if |s| > 0 {
      FilterSameCriterion(s[1..], a, b);
      FilterUnfold(s, a);
      FilterUnfold(s, b);
    }
  }

  /** Filtering by `a` and then by `b` is filtering once by their conjunction `both`. */
  lemma {:induction false} FilterFilter<T(!new)>(s: seq<T>, a: T -> bool, b: T -> bool, both: T -> bool)
    requires forall x :: both(x) == (a(x) && b(x))
    ensures Filter(Filter(s, a), b) == Filter(s, both)
    decreases |s|
  {
    if |s| > 0 {
      FilterFilter(s[1..], a, b, both);
      FilterUnfold(s, a);
      FilterUnfold(s, both);
      if a(s[0]) {
        var once := Filter(s, a);
        assert once[0] == s[0] && once[1..] == Filter(s[1..], a);
        FilterUnfold(once, b);
      }
    }
  }

  /** Adjacent slices join into one. */
  lemma SliceJoin<T>(s: seq<T>, lo: nat, hi: nat)
    requires lo <= hi <= |s|
    ensures s[..lo] + s[lo..hi] == s[..hi]
  {
  }

  /** Applying `f` to exactly the elements satisfying `hit`, in place. */
  function MapWhere<T>(s: seq<T>, hit: T -> bool, f: T -> T): (r: seq<T>)
    ensures |r| == |s|
    ensures forall i :: 0 <= i < |s| ==> r[i] == if hit(s[i]) then f(s[i]) else s[i]
  {
    seq(|s|, i requires 0 <= i < |s| => if hit(s[i]) then f(s[i]) else s[i])
  }
}

=== FILE: sorting.dfy ===
/**
  Sorting a sequence under a three-way comparator (negative, zero or positive),
  as `Array.prototype.sort` does with a compare function. The algorithm is an
  insertion sort; what is promised of it is that the result is a permutation of
  the input that is ordered under the comparator.
 */
module Sorting {

  /** Neighbouring elements never compare as "greater". */
  ghost predicate Ordered<T>(s: seq<T>, cmp: (T, T) -> int)
  {
    forall i :: 0 <= i < |s| - 1 ==> cmp(s[i], s[i + 1]) <= 0
  }

  /** No element precedes a later one that compares below it. */
  ghost predicate PairwiseOrdered<T>(s: seq<T>, cmp: (T, T) -> int)
  {
    forall i, j :: 0 <= i < j < |s| ==> cmp(s[i], s[j]) <= 0
  }

  /** On the elements of `s`, `cmp` never reports "greater" in both directions. */
  ghost predicate Connex<T>(s: seq<T>, cmp: (T, T) -> int)
  {
    forall a, b :: a in s && b in s && cmp(a, b) > 0 ==> cmp(b, a) <= 0
  }

  /** On the elements of `s`, "not greater" is transitive. */
  ghost predicate TransitiveOn<T>(s: seq<T>, cmp: (T, T) -> int)
  {
    forall a, b, c :: a in s && b in s && c in s && cmp(a, b) <= 0 && cmp(b, c) <= 0 ==> cmp(a, c) <= 0
  }

  /** Inserts `x` before the first element it does not compare above. */
  function Insert<T>(x: T, s: seq<T>, cmp: (T, T) -> int): (r: seq<T>)
    ensures multiset(r) == multiset(s) + multiset{x}
    ensures |r| == |s| + 1
    ensures r[0] == x || (|s| > 0 && r[0] == s[0])
    decreases |s|
  {
    if |s| == 0 then [x]
    else if cmp(x, s[0]) <= 0 then [x] + s
    else
      assert s == [s[0]] + s[1..];
      [s[0]] + Insert(x, s[1..], cmp)
  }

  function InsertionSort<T>(s: seq<T>, cmp: (T, T) -> int): (r: seq<T>)
    ensures multiset(r) == multiset(s)
    ensures |r| == |s|
    decreases |s|
  {
    if |s| == 0 then []
    else
      assert s == [s[0]] + s[1..];
      Insert(s[0], InsertionSort(s[1..], cmp), cmp)
  }

  /** Inserting into an ordered sequence keeps it ordered. */
  lemma {:induction false} InsertOrdered<T>(x: T, s: seq<T>, cmp: (T, T) -> int)
    requires Ordered(s, cmp)
    requires forall y :: y in s && cmp(x, y) > 0 ==> cmp(y, x) <= 0
    ensures Ordered(Insert(x, s, cmp), cmp)
    decreases |s|
  {
    if |s| > 0 && cmp(x, s[0]) > 0 {
      var tail := s[1..];
      assert forall y :: y in tail ==> y in s;
      InsertOrdered(x, tail, cmp);
      var r := Insert(x, s, cmp);
      var rest := Insert(x, tail, cmp);
      assert r == [s[0]] + rest;
      assert cmp(s[0], rest[0]) <= 0 by {
        if rest[0] == x {
          assert cmp(s[0], x) <= 0;
        } else {
          assert rest[0] == s[1];
        }
      }
      forall i | 0 <= i < |r| - 1
        ensures cmp(r[i], r[i + 1]) <= 0
      {
        if i > 0 {
          assert r[i] == rest[i - 1] && r[i + 1] == rest[i];
        }
      }
    }
  }

  /** The result of the sort is ordered whenever `cmp` is connex on the input. */
  lemma {:induction false} InsertionSortOrdered<T>(s: seq<T>, cmp: (T, T) -> int)
    requires Connex(s, cmp)
    ensures Ordered(InsertionSort(s, cmp), cmp)
    decreases |s|
  {
    if |s| > 0 {
      var tail := s[1..];
      assert forall y :: y in tail ==> y in s;
      InsertionSortOrdered(tail, cmp);
      var sorted := InsertionSort(tail, cmp);
      forall y | y in sorted
        ensures y in s
      {
        assert y in multiset(sorted);
      }
      InsertOrdered(s[0], sorted, cmp);
    }
  }

  /** With a transitive comparator, neighbourwise order is order between any two positions. */
  lemma {:induction false} OrderedIsPairwise<T>(s: seq<T>, cmp: (T, T) -> int)
    requires Ordered(s, cmp)
    requires TransitiveOn(s, cmp)
    ensures PairwiseOrdered(s, cmp)
  {
    forall i, j | 0 <= i < j < |s|
      ensures cmp(s[i], s[j]) <= 0
    {
      var k := i + 1;
      while k < j
        invariant i < k <= j
        invariant cmp(s[i], s[k]) <= 0
      {
        assert cmp(s[k], s[k + 1]) <= 0;
        k := k + 1;
      }
    }
  }
}

=== FILE: taskspage.dfy ===
/**
  The task list: a status and priority pre-filter in front of the data table,
  deletion and in-place status change after the server's reply, and the
  table's column configuration.
 */
module TasksPage {
  import opened Wrappers
  import opened Records
  import opened Text
  import opened Entities
  import opened DataTable
  import Seqs
  import ListOps
  import Sorting

  /** The empty choice of either filter means "any". */
  predicate Wanted(t: Task, statusFilter: string, priorityFilter: string)
  {
    (statusFilter == "" || t.status == statusFilter) && (priorityFilter == "" || t.priority == priorityFilter)
  }

  function WantedBy(statusFilter: string, priorityFilter: string): Task -> bool
  {
    (t: Task) => Wanted(t, statusFilter, priorityFilter)
  }

  /** `filteredTasks`. */
  function FilterTasks(tasks: seq<Task>, statusFilter: string, priorityFilter: string): (r: seq<Task>)
    ensures forall t :: t in r <==> t in tasks && Wanted(t, statusFilter, priorityFilter)
    ensures |r| <= |tasks|
  {
    Seqs.Filter(tasks, WantedBy(statusFilter, priorityFilter))
  }

  /** With both filters on "any", every task is listed, in order. */
  lemma FilterTasksAll(tasks: seq<Task>)
    ensures FilterTasks(tasks, "", "") == tasks
  {
    Seqs.FilterKeepsAll(tasks, WantedBy("", ""));
  }

  /** The two filters are independent: filtering by status, then by priority, is filtering by both. */
  lemma FilterTasksCompose(tasks: seq<Task>, statusFilter: string, priorityFilter: string)
    ensures FilterTasks(FilterTasks(tasks, statusFilter, ""), "", priorityFilter)
         == FilterTasks(tasks, statusFilter, priorityFilter)
  {
    Seqs.FilterFilter(tasks, WantedBy(statusFilter, ""), WantedBy("", priorityFilter),
                      WantedBy(statusFilter, priorityFilter));
  }

  /** The listed tasks keep their order, each as often as in the full list. */
  lemma FilterTasksExact(tasks: seq<Task>, statusFilter: string, priorityFilter: string)
    ensures Seqs.IsSubsequence(FilterTasks(tasks, statusFilter, priorityFilter), tasks)
    ensures forall t :: multiset(FilterTasks(tasks, statusFilter, priorityFilter))[t]
                     == (if Wanted(t, statusFilter, priorityFilter) then multiset(tasks)[t] else 0)
  {
    Seqs.FilterIsSubsequence(tasks, WantedBy(statusFilter, priorityFilter));
    Seqs.FilterCounts(tasks, WantedBy(statusFilter, priorityFilter));
  }

  function TaskId(t: Task): string
  {
    t.id
  }

  /** `handleDeleteTask`, given the confirmation answer and the reply status. */
  function DeleteTask(tasks: seq<Task>, id: string, confirmed: bool, status: int): (r: seq<Task>)
    ensures !confirmed || status != 200 ==> r == tasks
    ensures confirmed && status == 200 ==> forall t :: t in r <==> t in tasks && t.id != id
  {
    ListOps.AfterDelete(tasks, TaskId, id, confirmed, status)
  }

  /** `handleStatusChange`, given the reply status; no confirmation is asked. */
  function ChangeTaskStatus(tasks: seq<Task>, id: string, newStatus: string, status: int): (r: seq<Task>)
    ensures status != 200 ==> r == tasks
    ensures status == 200 ==> |r| == |tasks| && forall i :: 0 <= i < |tasks| ==>
      && r[i].(status := tasks[i].status) == tasks[i]
      && (tasks[i].id == id ==> r[i].status == newStatus)
      && (tasks[i].id != id ==> r[i] == tasks[i])
  {
    if status == 200 then Seqs.MapWhere(tasks, (t: Task) => t.id == id, (t: Task) => t.(status := newStatus))
    else tasks
  }

  /** Repeating a successful status change changes nothing more. */
  lemma ChangeTaskStatusIdempotent(tasks: seq<Task>, id: string, newStatus: string)
    ensures var once := ChangeTaskStatus(tasks, id, newStatus, 200);
      ChangeTaskStatus(once, id, newStatus, 200) == once
  {
  }

  /**
    A status change of task `a` and a delete of task `b`, both sent before
    either reply arrives, with the status reply arriving first. As written,
    each handler applies its update to the list it saw when it was called,
    so the delete's update, computed from `tasks` and not from the list the
    status reply left, overwrites the status change.
   */
  function OverlapAsWritten(tasks: seq<Task>, a: string, newStatus: string, b: string): seq<Task>
  {
    DeleteTask(tasks, b, true, 200)
  }

  /** The same two replies, each applied to the list current when it arrives. */
  function OverlapSequential(tasks: seq<Task>, a: string, newStatus: string, b: string): (r: seq<Task>)
    ensures a != b ==> forall i :: 0 <= i < |tasks| && tasks[i].id == a ==> tasks[i].(status := newStatus) in r
    ensures forall t :: t in r ==> t.id != b
  {
    var current := ChangeTaskStatus(tasks, a, newStatus, 200);
    assert forall i :: 0 <= i < |tasks| ==> current[i] in current;
    DeleteTask(current, b, true, 200)
  }

  /** With task "1" still to do and a task "2", the as-written overlap loses the status change. */
  lemma OverlapLosesStatusChange()
    ensures var t1 := Task("1", "", "", "todo", "", "", "");
      var t2 := Task("2", "", "", "todo", "", "", "");
      && OverlapAsWritten([t1, t2], "1", "done", "2") == [t1]
      && OverlapSequential([t1, t2], "1", "done", "2") == [t1.(status := "done")]
  {
    var t1 := Task("1", "", "", "todo", "", "", "");
    var t2 := Task("2", "", "", "todo", "", "", "");
    var del := ListOps.Without(TaskId, "2");
    Seqs.FilterUnfold([t1, t2], del);
    Seqs.FilterUnfold([t2], del);
    assert [t1, t2][1..] == [t2] && [t2][1..] == [];
    var changed := ChangeTaskStatus([t1, t2], "1", "done", 200);
    assert changed == [t1.(status := "done"), t2];
    Seqs.FilterUnfold(changed, del);
    Seqs.FilterUnfold([t2], del);
    assert changed[1..] == [t2];
  }

  /** The table's columns; only "actions" has no sort button. */
  const Columns: seq<Column> := [
    Column("title", "Название", true),
    Column("status", "Статус", true),
    Column("priority", "Приоритет", true),
    Column("dueDate", "Срок выполнения", true),
    Column("assignedTo", "Ответственный", true),
    Column("actions", "Действия", false)]

  /** The table searches titles; search and pagination keep their defaults. */
  const TableConfig: Config := DefaultConfig(Columns, Some("title"))

  /** Exactly the five data columns are sortable. */
  lemma SortableKeys(key: string)
    ensures IsSortableKey(Columns, key) <==> key in {"title", "status", "priority", "dueDate", "assignedTo"}
  {
    if key in {"title", "status", "priority", "dueDate", "assignedTo"} {
      var i := if key == "title" then 0 else if key == "status" then 1 else if key == "priority" then 2
        else if key == "dueDate" then 3 else 4;
      assert Columns[i].key == key && Columns[i].sortable;
    }
  }

  /** Whatever the user does, the task table is never sorted by its "actions" column. */
  lemma NeverSortedByActions(inputs: seq<Input>, localeCompare: (string, string) -> int)
    ensures var s := Run(TableConfig, Initial, inputs, localeCompare);
      s.sort.Unsorted? || s.sort.column != "actions"
  {
    RunKeepsSortOnSortable(TableConfig, Initial, inputs, localeCompare);
    var s := Run(TableConfig, Initial, inputs, localeCompare);
    if s.sort.SortBy? {
      SortableKeys(s.sort.column);
    }
  }

  /** The title search is a case-insensitive substring test on the title. */
  lemma TitleSearch(t: Task, query: string)
    ensures Matches(Field(TaskRecord(t), "title"), query) <==> exists k :: OccursAt(Lower(t.title), Lower(query), k)
  {
    MatchesMeaning(Field(TaskRecord(t), "title"), query);
  }

  /** Every task column holds strings, so a sort on any sortable column orders the rows fully. */
  lemma SortedTasksOrdered(tasks: seq<Task>, key: string, d: Direction, localeCompare: (string, string) -> int)
    requires IsSortableKey(Columns, key)
    requires LocaleOrder(localeCompare)
    ensures Sorting.PairwiseOrdered(SortRows(TaskRows(tasks), SortBy(key, d), localeCompare), RowOrder(key, d, localeCompare))
  {
    SortableKeys(key);
    var rows := TaskRows(tasks);
    forall r | r in rows
      ensures Field(r, key).VStr?
    {
      var i :| 0 <= i < |rows| && rows[i] == r;
      assert r == TaskRecord(tasks[i]);
    }
    SortRowsOrdered(rows, key, d, localeCompare);
  }
}

=== FILE: text.dfy ===
/**
  The string operations the search filter relies on: `toLowerCase`, `includes`
  and the decimal `toString` of an integer-valued number.
 */
module Text {

  predicate IsUpper(c: char)
  {
    'A' <= c <= 'Z'
  }

  /**
    `a` and `b` are the same letter up to ASCII case: equal, or one is an
    upper-case letter and the other its lower-case partner, 32 code points on.
   */
  predicate SameIgnoringCase(a: char, b: char)
  {
    || a == b
    || (IsUpper(a) && b as int == a as int + 32)
    || (IsUpper(b) && a as int == b as int + 32)
  }

  /** Two strings that differ at most in the ASCII case of their letters. */
  predicate EqualIgnoringCase(s: string, t: string)
  {
    |s| == |t| && forall i :: 0 <= i < |s| ==> SameIgnoringCase(s[i], t[i])
  }

  /**
    Upper-case ASCII letters become lower case; every other character is kept.
    The two ensures pin the result down: the only character that is the same
    letter as `c` and not upper case.
   */
  function LowerChar(c: char): (d: char)
    ensures !IsUpper(d)
    ensures SameIgnoringCase(c, d)
  {
    if IsUpper(c) then (c as int + 32) as char else c
  }

  /** Characters lower-case alike exactly when they are the same letter up to case. */
  lemma LowerCharEqualIff(a: char, b: char)
    ensures LowerChar(a) == LowerChar(b) <==> SameIgnoringCase(a, b)
  {
  }

  /** `toLowerCase`, restricted to ASCII case mapping. */
  function Lower(s: string): (r: string)
    ensures |r| == |s|
    ensures forall i :: 0 <= i < |r| ==> r[i] == LowerChar(s[i])
  {
    seq(|s|, i requires 0 <= i < |s| => LowerChar(s[i]))
  }

  /** Lower-casing a string twice changes nothing more than doing it once. */
  lemma LowerIdempotent(s: string)
    ensures Lower(Lower(s)) == Lower(s)
  {
  }

  /** Strings lower-case alike exactly when they differ at most in the case of their letters. */
  lemma {:induction false} LowerEqualIff(s: string, t: string)
    ensures Lower(s) == Lower(t) <==> EqualIgnoringCase(s, t)
  {
    if EqualIgnoringCase(s, t) {
      forall i | 0 <= i < |s|
        ensures Lower(s)[i] == Lower(t)[i]
      {
        LowerCharEqualIff(s[i], t[i]);
      }
    }
    if Lower(s) == Lower(t) {
      forall i | 0 <= i < |s|
        ensures SameIgnoringCase(s[i], t[i])
      {
        LowerCharEqualIff(s[i], t[i]);
      }
    }
  }

  /** `needle` occurs in `hay` starting at offset `k`: the reference meaning of `includes`. */
  ghost predicate OccursAt(hay: string, needle: string, k: int)
  {
    0 <= k && k + |needle| <= |hay| && hay[k..k + |needle|] == needle
  }

  predicate StartsWith(s: string, prefix: string)
  {
    |prefix| <= |s| && s[..|prefix|] == prefix
  }

  /** `String.prototype.includes`: a left-to-right scan over the start positions. */
  function Contains(hay: string, needle: string): (b: bool)
    ensures |needle| == 0 ==> b
    ensures b ==> |needle| <= |hay|
    decreases |hay|
  {
    if StartsWith(hay, needle) then true
    else if |hay| == 0 then false
    else Contains(hay[1..], needle)
  }

  /** The scan finds the needle exactly when it occurs somewhere. */
  lemma {:induction false} ContainsIffOccurs(hay: string, needle: string)
    ensures Contains(hay, needle) <==> exists k :: OccursAt(hay, needle, k)
    decreases |hay|
  {
    if StartsWith(hay, needle) {
      assert OccursAt(hay, needle, 0);
    } else if |hay| == 0 {
      assert !exists k :: OccursAt(hay, needle, k);
    } else {
      var tail := hay[1..];
      ContainsIffOccurs(tail, needle);
      forall k | OccursAt(hay, needle, k)
        ensures OccursAt(tail, needle, k - 1)
      {
        assert tail[k - 1..k - 1 + |needle|] == hay[k..k + |needle|];
      }
      forall k | OccursAt(tail, needle, k)
        ensures OccursAt(hay, needle, k + 1)
      {
        assert tail[k..k + |needle|] == hay[k + 1..k + 1 + |needle|];
      }
    }
  }

  predicate IsDigit(c: char)
  {
    '0' <= c <= '9'
  }

  function DigitChar(d: nat): (c: char)
    requires d < 10
    ensures IsDigit(c)
  {
    ('0' as int + d) as char
  }

  function DigitValue(c: char): (d: nat)
    requires IsDigit(c)
    ensures d < 10 && DigitChar(d) == c
  {
    c as int - '0' as int
  }

  /** The decimal numeral of `n`, most significant digit first. */
  function NatToDecimal(n: nat): (s: string)
    ensures |s| > 0
    ensures forall i :: 0 <= i < |s| ==> IsDigit(s[i])
    ensures s[0] == '0' <==> n == 0
    ensures n == 0 <==> s == "0"
    decreases n
  {
    if n < 10 then [DigitChar(n)] else NatToDecimal(n / 10) + [DigitChar(n % 10)]
  }

  /** `Number.prototype.toString()` of an integer: a minus sign, then the digits. */
  function IntToDecimal(n: int): (s: string)
    ensures |s| > 0
    ensures s[0] == '-' <==> n < 0
    ensures n >= 0 ==> s == NatToDecimal(n)
    ensures var digits := if n < 0 then s[1..] else s;
      && |digits| > 0
      && (forall i :: 0 <= i < |digits| ==> IsDigit(digits[i]))
      && (digits[0] == '0' <==> n == 0)
  {
    if n < 0 then "-" + NatToDecimal(-n) else NatToDecimal(n)
  }

  /** The value of a string of decimal digits. */
  function ParseNat(s: string): nat
    requires forall i :: 0 <= i < |s| ==> IsDigit(s[i])
    decreases |s|
  {
    if |s| == 0 then 0 else ParseNat(s[..|s| - 1]) * 10 + DigitValue(s[|s| - 1])
  }

  /** The value of an optionally signed decimal numeral. */
  function ParseInt(s: string): int
    requires |s| > 0 && (s[0] == '-' ==> |s| > 1)
    requires forall i :: 0 < i < |s| ==> IsDigit(s[i])
    requires s[0] != '-' ==> IsDigit(s[0])
  {
    if s[0] == '-' then -(ParseNat(s[1..]) as int) else ParseNat(s)
  }

  /** Reading back the numeral of `n` yields `n`. */
  lemma {:induction false} NatToDecimalRoundTrip(n: nat)
    ensures ParseNat(NatToDecimal(n)) == n
    decreases n
  {
    var s := NatToDecimal(n);
    if n >= 10 {
      NatToDecimalRoundTrip(n / 10);
      assert s[..|s| - 1] == NatToDecimal(n / 10);
    } else {
      assert s[..0] == [];
    }
  }

  /** Reading back the numeral of an integer yields that integer. */
  lemma IntToDecimalRoundTrip(n: int)
    ensures ParseInt(IntToDecimal(n)) == n
  {
    var s := IntToDecimal(n);
    if n < 0 {
      assert s[1..] == NatToDecimal(-n);
      NatToDecimalRoundTrip(-n);
    } else {
      NatToDecimalRoundTrip(n);
    }
  }

  /** Distinct integers have distinct numerals. */
  lemma IntToDecimalInjective(m: int, n: int)
    requires IntToDecimal(m) == IntToDecimal(n)
    ensures m == n
  {
    IntToDecimalRoundTrip(m);
    IntToDecimalRoundTrip(n);
  }
}

=== FILE: wrappers.dfy ===
/** The optional value used for JavaScript properties that may be `undefined`. */
module Wrappers {

  datatype Option<+T> = None | Some(value: T)
}
